=== FILE: README.md ===
# Storefront client core, modelled in Dafny

This project models the client-side rules of a small e-commerce storefront (a
Next.js app whose prices, stock and orders live in an external HTTP API):

- **Cookies** — the `getCookie` reader that three files define identically.
  It answers only when `"; <name>="` occurs exactly once in `"; " + document.cookie`.
- **Auth** — the session store. The mount check decodes the `auth-token`
  cookie and compares its expiry with the current time. `login` and `logout` also live here.
- **CartStore** — the cart store. Every call is gated on the signed-in user.
  The server's list replaces the local items wholesale, failures leave them
  alone, and only `addToCart` reports a failure. The module also covers the
  reset on sign-out and `getTotal`.
- **Checkout** — the cart page. It covers:
  - the CEP (Brazilian postcode) auto-formatter;
  - the ordered validation on submission (user, then required fields, then the `NNNNN-NNN` pattern);
  - the state-name lookup with the built-in fallback list;
  - the order payload;
  - the minus button's `Math.max(1, q - 1)`.
- **Catalog** — the home page. It covers:
  - the product query, with empty filters omitted and the search trimmed;
  - the page reset on a filter change;
  - the toggle selection, and "add selected to cart" (which stops at the first failure);
  - logout.
- **ProductFilters** — the filter panel: single-field updates, the
  debounced search box, "clear all", and the active-filter badge.
- **Carousel** — wrap-around next/previous over the images, and the
  single-image branch.
- **OrderSuccess** — the `orderId` guard and the status badge map.

`Wrappers` (an `Option` type) and `Text` are helpers:
- JavaScript's `trim` whitespace set;
- `\D` stripping;
- decimal rendering and parsing of naturals.

Server replies, the decoded token payload (`decode`) and `Date.now()`
(`now`) are parameters. Every operation is a pure function from the old
state and the reply to the new state.

On a panel that is not yet debounced, the active-filter badge counts the search box once. Once
the debounce has fired it counts the search term twice: once as the
record's `search` field and once for the box. The model keeps this as written
(`ProductFilters.SettledSearchCountsTwice`). The firing itself wipes the other
four fields, which is listed under "Findings". Likewise, on the order page a
missing `orderId` leaves the loading flag set, because the early return skips
the `finally` (`OrderSuccess.Enter`).

## Model

| member | source | states |
|---|---|---|
| Cookies.SplitJoin | lib/auth-context.tsx:50-51 | joining the parts of `split(sep)` back with `sep` gives the input |
| Cookies.SplitPartsSepFree | lib/auth-context.tsx:51 | no part of a split contains the separator |
| Cookies.FirstField | lib/auth-context.tsx:52 | `split(";").shift()` is the longest `;`-free prefix: it is followed by `;` or is the whole string |
| Cookies.GetCookie | lib/auth-context.tsx:48-54 | no `document` gives null; a value returned never contains `;` |
| Cookies.GetCookieSound | lib/auth-context.tsx:48-54 | a value returned is the text up to the next `;` after the only occurrence of `"; name="` (the text before and after it is free of the separator) |
| Cookies.GetCookieAbsent | lib/auth-context.tsx:52-53 | with no occurrence of `"; name="` the reader returns null |
| Cookies.GetCookieAmbiguous | lib/auth-context.tsx:52-53 | two disjoint occurrences of `"; name="` make the split have three or more parts, and the reader returns null |
| Cookies.SeparatorNotSelfOverlapping | lib/auth-context.tsx:51 | for a name without `;`, two occurrences of `"; name="` cannot overlap |
| Cookies.GetCookieUnique | lib/auth-context.tsx:48-54 | exactly one occurrence of `"; name="` (name without `;`) returns the text after it up to the next `;` |
| Auth.Mounted | lib/auth-context.tsx:21-22 | the provider starts with no user and `isLoading` true |
| Auth.Initialize | lib/auth-context.tsx:24-46 | `isLoading` ends false on every path; no token leaves the user null and the cookie untouched; an undecodable token or `exp <= now` deletes the cookie and keeps the user null; `exp > now` sets `{id, name, email}` from the payload and keeps the cookie |
| Auth.InitializeAgrees | lib/auth-context.tsx:24-46 | after the mount check a user is signed in exactly when the cookie holds a live token, and it is that token's user |
| Auth.Login | lib/auth-context.tsx:56-72 | `login(u, t)` sets the user to `u`; since `setCookie` writes `auth-token=t; expires=…`, the cookie reads back as `t` when `t` has no `;` and as the part of `t` before its first `;` otherwise |
| Auth.LoginAgrees | lib/auth-context.tsx:56-72 | logging in with a token whose stored part is live and names the user keeps user and cookie in agreement |
| Auth.Logout | lib/auth-context.tsx:74-77 | `logout` clears the user and deletes the cookie |
| Auth.LogoutAgrees | lib/auth-context.tsx:74-77 | a logged-out session agrees with every decoder and clock |
| Auth.LogoutIdempotent | lib/auth-context.tsx:74-77 | logout twice is logout once, and logout erases a preceding login |
| CartStore.RequestOf | lib/cart-context.tsx:79-170 | no request is sent without a user; an update sends the update request exactly when the quantity is positive |
| CartStore.LoadCart | lib/cart-context.tsx:48-65 | without a user or on failure the items are kept; on success they become the body's `items`, or the empty list when absent |
| CartStore.AddToCart | lib/cart-context.tsx:79-102 | throws `Unauthenticated` without a user and `AddFailed` on a refused reply, leaving the cart unchanged; on success the items are exactly the server's list |
| CartStore.RemoveFromCart | lib/cart-context.tsx:104-124 | without a user or on failure nothing changes; on success the items are exactly the server's list |
| CartStore.UpdateQuantity | lib/cart-context.tsx:126-151 | a quantity `<= 0` is `removeFromCart`; otherwise the server's list on success and no change on failure or without a user |
| CartStore.UpdateNonPositiveIsRemove | lib/cart-context.tsx:129-132 | for `q <= 0` the update sends the delete request and yields the same cart as the removal, for every reply |
| CartStore.ClearCart | lib/cart-context.tsx:153-170 | a confirmed clear empties the items; otherwise nothing changes |
| CartStore.OnUserChange | lib/cart-context.tsx:40-46 | no user empties the cart; a user triggers a load |
| CartStore.ReplayIsLastImposed | lib/cart-context.tsx:40-170 | after any sequence of calls the items are exactly the last list the server imposed (no merging), or the initial items if none did |
| CartStore.LastImposedWellFormed | lib/cart-context.tsx:58-60 | if every server list has positive quantities and one line per product, so does the last one imposed |
| CartStore.ReplayWellFormed | lib/cart-context.tsx:92-94 | the client never breaks those invariants while the server keeps them |
| CartStore.GetTotal | lib/cart-context.tsx:172-179 | the `reduce` loop computes the sum of `price * (1 - d) * quantity` over the items |
| CartStore.TotalAppend | lib/cart-context.tsx:173-178 | the total of two lists together is the sum of their totals |
| CartStore.TotalPermutation | lib/cart-context.tsx:172-179 | the total does not depend on the order of the lines |
| CartStore.SumByPermutation | lib/cart-context.tsx:172-179 | a `reduce` that adds a per-line amount gives the same sum for any reordering of the lines |
| Text.DigitsOf | app/cart/page.tsx:96 | `replace(/\D/g, "")` keeps only ASCII digits, in order |
| Text.DigitsOfAllDigits | app/cart/page.tsx:96 | stripping a digit string changes nothing |
| Text.DigitsOfAppend | app/cart/page.tsx:96 | stripping distributes over concatenation |
| Text.Trim | app/page.tsx:81 | `trim` leaves no JavaScript whitespace at either end |
| Text.TrimIsSlice | app/page.tsx:81 | the trimmed string is a contiguous slice with only whitespace before it |
| Text.TrimEmptyIff | app/page.tsx:81 | the trimmed string is empty exactly when the input is all whitespace |
| Text.TrimIdempotent | app/page.tsx:81 | trimming twice is trimming once |
| Text.NatToString | app/page.tsx:77 | `toString()` of a page number is a digit string without a leading zero |
| Text.ParseNatToString | app/page.tsx:77 | reading the page string back gives the page number |
| Checkout.FormatCep | app/cart/page.tsx:94-103 | the result has at most 9 characters, all digits except a hyphen at position 5; with at most 5 digits it is the digit string; with 8 or more digits it matches `^\d{5}-\d{3}$` |
| Checkout.FormatCepDigits | app/cart/page.tsx:96-101 | the result keeps the first eight digits of the input in order and drops the rest |
| Checkout.FormatCepIdempotent | app/cart/page.tsx:94-103 | formatting a formatted value changes nothing |
| Checkout.FormatCepKeepsCep | app/cart/page.tsx:94-103 | a value already matching `NNNNN-NNN` is a fixed point |
| Checkout.InitialDraft | app/cart/page.tsx:36-47 | name and e-mail are prefilled from the user and every other field starts empty |
| Checkout.Set | app/cart/page.tsx:105 | the spread update changes exactly the named field |
| Checkout.HandleInputChange | app/cart/page.tsx:94-106 | the zipcode is stored formatted, every other field verbatim, and no other field changes |
| Checkout.TypedZipcodeValidates | app/cart/page.tsx:94-123 | any value typed with eight or more digits is stored as a CEP that passes the submission pattern |
| Checkout.MissingOf | app/cart/page.tsx:114-115 | the missing fields are exactly the listed fields that are empty |
| Checkout.MissingFieldsIff | app/cart/page.tsx:114-120 | nothing is missing exactly when every field except `observation` is filled |
| Checkout.StatesAfterFetch | app/cart/page.tsx:61-85 | a successful body gives its state list; a failure flag or a thrown error gives the built-in SP/RJ/MG list |
| Checkout.StateName | app/cart/page.tsx:130-131 | the name of the first state whose code matches, else the raw code |
| Checkout.PreloadedStateNames | app/cart/page.tsx:23-27 | the fallback list resolves "SP" and passes an unknown code through |
| Checkout.OrderLines | app/cart/page.tsx:140-143 | one line per cart item, same order, carrying only id and quantity |
| Checkout.SubmitOrder | app/cart/page.tsx:108-155 | no user redirects; otherwise empty required fields stop it; otherwise a zipcode off the pattern stops it; otherwise the payload carries the lines, phone, street, number, neighbourhood, zipcode, city, state code, resolved state name, observation and the cart total |
| Checkout.RawZipcodeRejected | app/cart/page.tsx:122-126 | a raw "01310100" is refused even with every field filled |
| Checkout.FinishOrder | app/cart/page.tsx:157-162 | a created order is confirmed under the returned id; its cart is emptied when there is a user and the clear request succeeds (lib/cart-context.tsx:153-169), and is otherwise left as it was; a failed order changes nothing |
| Checkout.DecrementTarget | app/cart/page.tsx:238 | the minus button asks for `quantity - 1`, but never below 1 |
| Checkout.DecrementNeverRemoves | app/cart/page.tsx:281 | the minus button always sends an update request, never a removal |
| Catalog.BuildQuery | app/page.tsx:76-79 | the query starts with `page` and `limit = "8"` and has between 2 and 7 parameters |
| Catalog.Lookup | app/page.tsx:76-85 | `get(key)` finds a parameter with that key, and is null exactly when none has it |
| Catalog.LookupAppend | app/page.tsx:81-85 | appending parameters does not change a key already present |
| Catalog.LookupOptional | app/page.tsx:82-85 | `if (value) append(key, value)` adds exactly that key, and only for a non-empty value |
| Catalog.AssembleLookups | app/page.tsx:76-85 | every key of the assembled query finds exactly its own value, and is absent when its value is empty |
| Catalog.QueryLookups | app/page.tsx:76-85 | `page` is the current page, `limit` is "8", `search` is present and trimmed only when the trimmed value is non-empty, and the other four are present only when non-empty |
| Catalog.QueryRoundTrip | app/page.tsx:73-96 | the filters read back from the query are the filters sent (search trimmed), and the page reads back as the page number |
| Catalog.UnfilteredQuery | app/page.tsx:62-85 | with no filters the query is the page and the limit alone |
| Catalog.InitialQuery | app/page.tsx:62-85 | the first request, from the initial page state, asks for page `1` with limit `8` and no filter |
| Catalog.HandleFiltersChange | app/page.tsx:102-105 | the new filters replace the old and the page resets to 1 |
| Catalog.FilterChangeQueriesFirstPage | app/page.tsx:102-105 | after a filter change the next query asks for page 1 with the new filters |
| Catalog.HandlePageChange | app/page.tsx:107-110 | only the page changes |
| Catalog.WithoutMembers | app/page.tsx:114 | the filter keeps exactly the ids other than the removed one, and leaves a list that lacks it unchanged |
| Catalog.WithoutDistinct | app/page.tsx:114 | removing keeps a duplicate-free list duplicate-free |
| Catalog.ToggleSelect | app/page.tsx:112-116 | a present id is removed and an absent one appended; no other id's membership changes |
| Catalog.ToggleTwice | app/page.tsx:112-116 | toggling an absent id twice restores the list; toggling any id twice restores the set of ids |
| Catalog.WithoutAppend | app/page.tsx:114 | removal distributes over concatenation |
| Catalog.ToggleDistinct | app/page.tsx:112-116 | a duplicate-free selection stays duplicate-free |
| Catalog.SelectedProducts | app/page.tsx:127 | the selected products in catalog order: a subsequence holding exactly the products whose id is selected |
| Catalog.SelectedProductsCounts | app/page.tsx:127 | every copy of a selected product is kept and no copy of another |
| Catalog.AddEach | app/page.tsx:129-138 | the sequential adds succeed exactly when the list is empty, or there is a user and every reply is ok; an empty list leaves the cart as it was, and otherwise a success leaves the cart holding the last reply's list |
| Catalog.AddEachSent | app/page.tsx:129-131 | the loop sends the add request of each product it reaches, in order, none without a user, and reaches every product exactly when no add failed |
| Catalog.AddEachStopsAtFirstFailure | app/page.tsx:129-138 | with a user, a failure is `AddFailed`, and the reply to the last request sent is the first refused one; every earlier reply was ok, and the cart holds the list of the last accepted add, or the starting items when the first add was refused |
| Catalog.AddSelectedToCart | app/page.tsx:118-139 | no user sends nothing; no catalog does nothing; every add succeeds exactly when there are a user and a catalog and every reply to the selected products is ok, and only then is the selection cleared; otherwise with both it ends in an add error |
| Catalog.AddSelectedSends | app/page.tsx:127-134 | the requests sent are the add requests for the page's selected products in catalog order, up to the first refusal; the cart then holds the last accepted reply's list, or is unchanged when nothing was selected or the first add was refused |
| Catalog.HandleLogout | app/page.tsx:179-183 | logout is the auth logout, clears the selection and nothing else of the page, and (through the cart effect) empties the cart |
| ProductFilters.SetField | components/product-filters.tsx:49 | the spread update changes exactly the named key |
| ProductFilters.FieldsDetermine | components/product-filters.tsx:21-27 | the filter record is determined by its five fields |
| ProductFilters.HandleFilterChange | components/product-filters.tsx:48-52 | only key `k` changes to `v`, and the new record is the one reported |
| ProductFilters.FilterChangeOverwrites | components/product-filters.tsx:48-52 | a second write to a key supersedes the first; writing the current value changes nothing |
| ProductFilters.HandleSearchChange | components/product-filters.tsx:54-56 | typing changes only the search box |
| ProductFilters.SearchSettledAsWritten | components/product-filters.tsx:21-52 | the debounce calls the first render's `handleFilterChange`, so the stored and reported record holds the search box's text and four empty fields |
| ProductFilters.SettledSearchWipesOtherFields | components/product-filters.tsx:31-52 | a field set before the search settles is lost when it fires, so the as-written firing differs from the intended one |
| ProductFilters.WoodChairLosesMaterial | components/product-filters.tsx:31-52 | material "wood" then search "chair" reports `{search: "chair"}` with the material emptied |
| ProductFilters.SearchSettled | components/product-filters.tsx:31-52 | the intended firing writes the search box into the current record's `search` field and keeps the other four |
| ProductFilters.SettledAgreesWhenOnlySearch | components/product-filters.tsx:31-52 | the as-written and intended firings agree exactly when no field other than `search` is set |
| ProductFilters.ClearFilters | components/product-filters.tsx:58-69 | all five fields and the search box become empty, and the empty record is reported |
| ProductFilters.SelectValue | components/product-filters.tsx:172 | "all" maps to the empty string; every other value is kept |
| ProductFilters.SelectAllLifts | components/product-filters.tsx:193 | choosing "all" in the material or discount select empties that field and touches no other |
| ProductFilters.Values | components/product-filters.tsx:71 | `Object.values` lists the five fields, each exactly once |
| ProductFilters.CountNonEmptyBounds | components/product-filters.tsx:72 | the non-empty count is at most the number of values, and zero exactly when all are empty |
| ProductFilters.ActiveFiltersCountIff | components/product-filters.tsx:71-72 | the count lies in 0..6, is positive exactly when `hasActiveFilters`, and that holds exactly when some field or the search box is non-empty |
| ProductFilters.SettledSearchCountsTwice | components/product-filters.tsx:31-72 | once the as-written debounce has fired, any non-empty search term makes the count 2 |
| ProductFilters.ClearedPanelInactive | components/product-filters.tsx:58-72 | after "clear all" nothing is active and the page's next query holds only page and limit |
| Carousel.Next | components/product-carousel.tsx:20-22 | the last index wraps to 0, any other goes up by one, and the range `[0, n)` is preserved |
| Carousel.Previous | components/product-carousel.tsx:16-18 | index 0 wraps to `n - 1`, any other goes down by one, and the range is preserved |
| Carousel.PreviousNextInverse | components/product-carousel.tsx:16-22 | previous undoes next and next undoes previous |
| Carousel.NextIsSuccessorMod | components/product-carousel.tsx:20-22 | one press of next adds one modulo `n` |
| Carousel.NextTimesIsRotation | components/product-carousel.tsx:20-22 | `k` presses of next move to `(i + k) mod n` |
| Carousel.NextFullCircle | components/product-carousel.tsx:20-22 | `n` presses of next return to the start |
| Carousel.Jump | components/product-carousel.tsx:73 | a dot selects its own index, within range |
| Carousel.ImageAt | components/product-carousel.tsx:28 | a missing or empty URL falls back to the placeholder |
| Carousel.Render | components/product-carousel.tsx:24-81 | at most one image takes the single-image branch; otherwise the gallery shows the current image, the counter reads `current + 1` of `n`, and that position lies in `1..n` for an index in range |
| Carousel.NavigationOnlyWithSeveral | components/product-carousel.tsx:24-64 | arrows exist exactly with two or more images, and every index they reach stays in the gallery's range |
| OrderSuccess.OwnEntry | app/order-success/page.tsx:103-110 | exactly the six known statuses have an entry |
| OrderSuccess.StatusMapGet | app/order-success/page.tsx:112 | a bracket lookup finds an own entry for the six statuses and an inherited member for `Object.prototype`'s names |
| OrderSuccess.StatusBadgeAsWritten | app/order-success/page.tsx:112-117 | off the prototype's member names the badge has a label and a variant |
| OrderSuccess.ConstructorStatusHasNoLabel | app/order-success/page.tsx:112-117 | the status "constructor" renders a badge with an undefined label |
| OrderSuccess.StatusBadge | app/order-success/page.tsx:102-118 | pending, confirmed, processing, shipped, delivered and cancelled get "Pendente" (secondary), "Confirmado", "Processando", "Enviado", "Entregue" (default) and "Cancelado" (destructive); a non-empty label; an unknown status gets ("Desconhecido", secondary); destructive exactly for `cancelled`; secondary exactly for `pending` and unknown statuses |
| OrderSuccess.StatusLabelsDistinct | app/order-success/page.tsx:103-110 | the six labels differ from each other and from the fallback |
| OrderSuccess.AsWrittenAgrees | app/order-success/page.tsx:112-115 | off the prototype's member names the code as written renders the corrected badge |
| OrderSuccess.Enter | app/order-success/page.tsx:42-68 | a missing or empty `orderId` redirects home without fetching and leaves `loading` set; otherwise `loading` ends false, the order is fetched and shown, and a reply that is not ok or a thrown request redirects home; the details shown are exactly the order the server returned |
| OrderSuccess.NoIdNoFetch | app/order-success/page.tsx:43-46 | without an order id the outcome does not depend on any server reply |

## Left out

- HTTP: `fetch`, JSON parsing and status codes. Each backend reply is a parameter of the operation it answers.
- Token decoding: `Buffer.from(token, "base64")` and `JSON.parse` become the parameter `decode`, and `Date.now()` becomes `now`.
- Cookie writes: `setCookie`, `deleteCookie` and the 7-day expiry are not modelled. The session holds the value `getCookie("auth-token")` would read back (`None` once deleted): `login` stores the token up to its first `;`. Other cookies in the jar, and the trimming of spaces and tabs around a cookie value that section 5.2 of RFC 6265 asks browsers to apply, are not modelled.
- Floating point: `parseFloat`, `Intl.NumberFormat`, `toLocaleString` and the `Math.round` discount badge are left out. Prices are exact `real`s, already parsed.
- CartStore.GetTotal: computes over exact reals, so it does not claim equality with the float sum JavaScript computes.
- Add, delete and update replies: each modelled success carries a list. A 2xx body without `items` would store `undefined` in the source; that case is not modelled.
- React: effects, the 500 ms debounce timer, rendering, routing targets, toasts, `window.scrollTo` and the clipboard are not modelled. The debounce firing is `ProductFilters.SearchSettledAsWritten`; the extra firing on mount, with an empty box, is not modelled.
- Panel keys: `handleFilterChange` is modelled for the five keys the panel calls it with. A key outside the record is never passed.
- Single adds: `handleAddToCart` on the home page is `CartStore.AddToCart` with its error turned into a toast.
- Other UI: the order page's and cart page's render trees (the empty-cart view, the price formatting) and the panel's show/hide toggle are left out.
- Other files: `components/login-modal.tsx` and `components/register-modal.tsx` (fetch wrappers) and `app/layout.tsx` (provider nesting) are not part of this model.
- Overlapping requests: every cart call is taken to finish before the next starts (`CartStore.Replay`). The source has no guard against a late reply. For example, the user effect starts `loadCart`, the user signs out and the cart is set to `[]`, and the list reply then refills the cart of a signed-out session. That race is not modelled.
- OrderSuccess.Enter: `data.order` is taken as present in an ok reply. A missing `order` field is not modelled.

## Findings

| source | as written | input that shows it | evidently intended | confidence | as-written member | corrected member |
|---|---|---|---|---|---|---|
| app/order-success/page.tsx:112-115 | the bracket lookup `statusMap[status]` goes through the prototype chain before the fallback applies, so a name inherited from `Object.prototype` yields a truthy function instead of `undefined` | status `"constructor"` (also `"toString"`, `"__proto__"`, …): the badge gets an undefined label and variant instead of "Desconhecido" | only the six own entries are known; every other status shows ("Desconhecido", secondary) | not executed | OrderSuccess.ConstructorStatusHasNoLabel | OrderSuccess.StatusBadge |
| components/product-filters.tsx:31-52 | the debounced callback is memoised with an empty dependency list, so its timer calls the first render's `handleFilterChange`, which spreads the initial empty `filters` | choose material "wood", then type "chair": after 500 ms the panel stores and reports `{search: "chair"}` with `material` empty | the search settles into the current record and keeps the other fields | not executed | ProductFilters.WoodChairLosesMaterial | ProductFilters.SearchSettled |

=== FILE: auth.dfy ===
/** The session store of lib/auth-context.tsx: the signed-in user, the loading
    flag of the mount-time check, and the `auth-token` cookie.  The cookie is
    modelled by the value `getCookie("auth-token")` reads back (see module
    Cookies); decoding the token (base64 then JSON) is the parameter `decode`,
    and `Date.now()` is the parameter `now`. */
module Auth {
  import opened Wrappers
  import Cookies

  datatype User = User(id: string, name: string, email: string)

  /** The fields the mount-time check reads from a decoded token; `exp` is an
      epoch-millisecond expiry. */
  datatype TokenPayload = TokenPayload(id: string, name: string, email: string, exp: int)

  datatype AuthState = AuthState(user: Option<User>, isLoading: bool, token: Option<string>)

  /** `if (token)`: a token read back counts only when it is non-empty. */
  predicate Present(token: Option<string>) {
    token.Some? && token.value != ""
  }

  function UserOf(p: TokenPayload): User {
    User(p.id, p.name, p.email)
  }

  /** The token decodes and its expiry lies strictly after `now`. */
  predicate Live(token: string, decode: string -> Option<TokenPayload>, now: int) {
    decode(token).Some? && decode(token).value.exp > now
  }

  /** Identity and cookie agree: a user is signed in exactly when the cookie
      holds a live token, and the user is the one that token names. */
  predicate Agrees(s: AuthState, decode: string -> Option<TokenPayload>, now: int) {
    && (s.user.Some? <==> Present(s.token) && Live(s.token.value, decode, now))
    && (s.user.Some? ==> s.user.value == UserOf(decode(s.token.value).value))
  }

  /** The provider as first rendered: no user, still loading. */
  function Mounted(token: Option<string>): (s: AuthState)
    ensures s.user.None? && s.isLoading
    ensures s.token == token
  {
    AuthState(None, true, token)
  }

  /** The mount effect: read the token, decode it, compare its expiry with
      `now`; delete the cookie when the token is malformed or expired. */
  function Initialize(token: Option<string>, decode: string -> Option<TokenPayload>, now: int): (s: AuthState)
    ensures !s.isLoading
    ensures !Present(token) ==> s.user.None? && s.token == token
    ensures Present(token) && decode(token.value).None? ==> s.user.None? && s.token.None?
    ensures Present(token) && decode(token.value).Some? && decode(token.value).value.exp <= now
            ==> s.user.None? && s.token.None?
    ensures Present(token) && Live(token.value, decode, now)
            ==> s.user == Some(UserOf(decode(token.value).value)) && s.token == token
  {
    var start := Mounted(token);
    var checked :=
      if !Present(token) then start
      else match decode(token.value)
        case None => start.(token := None)
        case Some(p) => if p.exp > now then start.(user := Some(UserOf(p))) else start.(token := None);
    checked.(isLoading := false)
  }

  /** After the mount check, identity and cookie always agree, whatever the
      cookie held. */
  lemma InitializeAgrees(token: Option<string>, decode: string -> Option<TokenPayload>, now: int)
    ensures Agrees(Initialize(token, decode, now), decode, now)
  {
  }

  /** `login(user, token)`: sign in and store the token.  `setCookie` writes
      `auth-token=<token>; expires=...`, so the value read back ends at the
      token's first ';'. */
  function Login(s: AuthState, u: User, token: string): (r: AuthState)
    ensures r.user == Some(u) && r.token.Some?
    ensures ';' !in token ==> r.token.value == token
    ensures ';' in token ==> r.token.value < token && token[|r.token.value|] == ';'
    ensures ';' !in r.token.value
    ensures r.isLoading == s.isLoading
  {
    s.(user := Some(u), token := Some(Cookies.FirstField(token)))
  }

  /** Logging in with a token whose stored part is live and names the user
      keeps identity and cookie in agreement. */
  lemma LoginAgrees(s: AuthState, u: User, token: string, decode: string -> Option<TokenPayload>, now: int)
    requires Cookies.FirstField(token) != "" && Live(Cookies.FirstField(token), decode, now)
    requires u == UserOf(decode(Cookies.FirstField(token)).value)
    ensures Agrees(Login(s, u, token), decode, now)
  {
  }

  /** `logout()`: sign out and delete the cookie. */
  function Logout(s: AuthState): (r: AuthState)
    ensures r.user.None? && r.token.None?
    ensures r.isLoading == s.isLoading
  {
    s.(user := None, token := None)
  }

  /** A signed-out state with no cookie agrees with every decoder and clock. */
  lemma LogoutAgrees(s: AuthState, decode: string -> Option<TokenPayload>, now: int)
    ensures Agrees(Logout(s), decode, now)
  {
  }

  /** Logging out twice is logging out once, and logging out forgets any
      login before it. */
  lemma LogoutIdempotent(s: AuthState, u: User, token: string)
    ensures Logout(Logout(s)) == Logout(s)
    ensures Logout(Login(s, u, token)) == Logout(s)
  {
  }
}

=== FILE: carousel.dfy ===
/** The image index of components/product-carousel.tsx: previous and next
    wrap around the `n` images, a dot jumps to its image, and with at most
    one image there is no navigation at all. */
module Carousel {

  /** `goToNext`: the last image goes back to the first. */
  function Next(i: int, n: nat): (j: int)
    ensures 0 <= i < n ==> 0 <= j < n
    ensures 0 <= i < n - 1 ==> j == i + 1
    ensures n >= 1 && i == n - 1 ==> j == 0
  {
    if i == n - 1 then 0 else i + 1
  }

  /** `goToPrevious`: the first image goes to the last. */
  function Previous(i: int, n: nat): (j: int)
    ensures 0 <= i < n ==> 0 <= j < n
    ensures 0 < i ==> j == i - 1
    ensures i == 0 ==> j == n - 1
  {
    if i == 0 then n - 1 else i - 1
  }

  /** Previous and next undo each other on every valid index. */
  lemma PreviousNextInverse(i: int, n: nat)
    requires 0 <= i < n
    ensures Previous(Next(i, n), n) == i
    ensures Next(Previous(i, n), n) == i
  {
  }

  /** `k` presses of the next button. */
  function NextTimes(i: int, n: nat, k: nat): int
    decreases k
  {
    if k == 0 then i else Next(NextTimes(i, n, k - 1), n)
  }

  /** A non-zero multiple of `n` is at least `n` away from zero. */
  lemma {:induction false} MultipleBounds(d: int, n: nat)
    ensures d >= 1 ==> d * n >= n
    ensures d <= -1 ==> d * n <= -(n as int)
    decreases if d < 0 then -d else d
  {
    if d > 1 {
      MultipleBounds(d - 1, n);
      assert d * n == (d - 1) * n + n;
    } else if d < -1 {
      MultipleBounds(d + 1, n);
      assert d * n == (d + 1) * n - n;
    }
  }

  /** The remainder of `q * n + r` is `r` when `r` is in range. */
  lemma ModOfMultiplePlus(q: int, n: nat, r: int)
    requires 0 <= r < n
    ensures (q * n + r) % n == r
  {
    var m := q * n + r;
    var q', r' := m / n, m % n;
    assert m == q' * n + r';
    assert (q - q') * n == r' - r;
    MultipleBounds(q - q', n);
  }

  /** One step of next is adding one around the ring. */
  lemma NextIsSuccessorMod(m: nat, n: nat)
    requires n > 0
    ensures Next(m % n, n) == (m + 1) % n
  {
    var q, r := m / n, m % n;
    assert m == q * n + r;
    if r == n - 1 {
      ModOfMultiplePlus(q + 1, n, 0);
      assert m + 1 == (q + 1) * n + 0;
    } else {
      ModOfMultiplePlus(q, n, r + 1);
    }
  }

  /** `k` presses of next move `k` places around the ring. */
  lemma {:induction false} NextTimesIsRotation(i: int, n: nat, k: nat)
    requires 0 <= i < n
    ensures NextTimes(i, n, k) == (i + k) % n
    decreases k
  {
    if k == 0 {
      ModOfMultiplePlus(0, n, i);
    } else {
      NextTimesIsRotation(i, n, k - 1);
      NextIsSuccessorMod(i + k - 1, n);
    }
  }

  /** `n` presses of next come back to the start. */
  lemma NextFullCircle(i: int, n: nat)
    requires 0 <= i < n
    ensures NextTimes(i, n, n) == i
  {
    NextTimesIsRotation(i, n, n);
    ModOfMultiplePlus(1, n, i);
  }

  /** A dot's `onClick`: jump straight to its image. */
  function Jump(index: nat, n: nat): (j: int)
    requires index < n
    ensures 0 <= j < n && j == index
  {
    index
  }

  const Placeholder: string := "/placeholder.svg?height=400&width=400"

  /** What the carousel shows: one plain image, or an image with arrows,
      dots and a "position / count" label. */
  datatype View = Single(src: string) | Gallery(src: string, position: int, count: nat)

  /** `images[i] || placeholder`: a missing or empty URL falls back to the
      placeholder. */
  function ImageAt(images: seq<string>, i: int): (src: string)
    ensures src != ""
    ensures 0 <= i < |images| && images[i] != "" ==> src == images[i]
    ensures !(0 <= i < |images| && images[i] != "") ==> src == Placeholder
  {
    if 0 <= i < |images| && images[i] != "" then images[i] else Placeholder
  }

  /** The render: at most one image takes the single-image branch. */
  function Render(images: seq<string>, current: int): (v: View)
    ensures v.Single? <==> |images| <= 1
    ensures v.Single? ==> v.src == ImageAt(images, 0)
    ensures v.Gallery? ==> v.src == ImageAt(images, current) && v.count == |images|
    ensures v.Gallery? ==> v.position == current + 1
    ensures v.Gallery? && 0 <= current < |images| ==> 1 <= v.position <= v.count
  {
    if |images| <= 1 then Single(ImageAt(images, 0))
    else Gallery(ImageAt(images, current), current + 1, |images|)
  }

  /** Navigation exists only with two or more images, and then every index
      reached by the arrows shows one of the images. */
  lemma NavigationOnlyWithSeveral(images: seq<string>, current: int)
    requires 0 <= current < |images|
    ensures Render(images, current).Gallery? <==> |images| > 1
    ensures |images| > 1 ==> Render(images, Next(current, |images|)).Gallery?
    ensures |images| > 1 ==> 1 <= Render(images, Previous(current, |images|)).position <= |images|
  {
  }
}

=== FILE: cart_store.dfy ===
/** The cart store of lib/cart-context.tsx.  Every operation is gated on the
    signed-in user and round-trips to the backend; the server's reply is a
    parameter.  On success the local items are replaced wholesale by the list
    the server returns; on failure they are left as they were, and only
    `addToCart` reports the failure to its caller. */
module CartStore {
  import opened Wrappers
  import Auth

  datatype Details = Details(adjective: string, material: string)

  /** A catalog product.  `price` and `discountValue` are decimal strings in
      the backend's JSON; here they are the numbers `parseFloat` reads. */
  datatype Product = Product(
    id: string,
    name: string,
    gallery: seq<string>,
    description: string,
    price: real,
    hasDiscount: bool,
    discountValue: real,
    details: Details)

  datatype CartItem = CartItem(product: Product, quantity: int)

  datatype CartState = CartState(user: Option<Auth.User>, items: seq<CartItem>)

  /** Reply of GET /cart/list: a success carrying the body's `items` field,
      which may be absent, or a failure (non-success status, network error or
      unreadable body). */
  datatype ListReply = Listed(items: Option<seq<CartItem>>) | ListFailed

  /** Reply of the add, delete-product, update-quantity and clear endpoints. */
  datatype Reply = Ok(items: seq<CartItem>) | Failed

  /** What `addToCart` throws. */
  datatype CartError = Unauthenticated | AddFailed

  datatype AddOutcome = AddOutcome(cart: CartState, error: Option<CartError>)

  datatype Command =
    | LoadCmd
    | AddCmd(product: Product)
    | RemoveCmd(productId: string)
    | UpdateCmd(productId: string, quantity: int)
    | ClearCmd

  /** The HTTP requests the store sends. */
  datatype Request =
    | ListRequest
    | AddRequest(productId: string, product: Product)
    | DeleteRequest(productId: string)
    | UpdateRequest(productId: string, quantity: int)
    | ClearRequest

  /** The request a command sends, if any: nothing without a user, and a
      delete instead of an update when the quantity is not positive. */
  function RequestOf(user: Option<Auth.User>, cmd: Command): (r: Option<Request>)
    ensures user.None? <==> r.None?
    ensures cmd.UpdateCmd? && r.Some? ==> (r.value.UpdateRequest? <==> cmd.quantity > 0)
  {
    if user.None? then None
    else match cmd
      case LoadCmd => Some(ListRequest)
      case AddCmd(p) => Some(AddRequest(p.id, p))
      case RemoveCmd(id) => Some(DeleteRequest(id))
      case UpdateCmd(id, q) => if q <= 0 then Some(DeleteRequest(id)) else Some(UpdateRequest(id, q))
      case ClearCmd => Some(ClearRequest)
  }

  /** `loadCart`: the server's list, or the empty list when the reply has no
      `items`; a failure is logged and leaves the cart as it was. */
  function LoadCart(s: CartState, reply: ListReply): (r: CartState)
    ensures r.user == s.user
    ensures s.user.None? || reply.ListFailed? ==> r.items == s.items
    ensures s.user.Some? && reply == Listed(None) ==> r.items == []
    ensures s.user.Some? && reply.Listed? && reply.items.Some? ==> r.items == reply.items.value
  {
    if s.user.None? then s
    else match reply
      case Listed(items) => s.(items := items.GetOr([]))
      case ListFailed => s
  }

  /** `addToCart`: throws `Unauthenticated` before any request without a user,
      and `AddFailed` when the server refuses; otherwise the cart becomes the
      server's list. */
  function AddToCart(s: CartState, p: Product, reply: Reply): (r: AddOutcome)
    ensures r.cart.user == s.user
    ensures r.error.Some? <==> s.user.None? || reply.Failed?
    ensures r.error.Some? ==> r.cart == s
    ensures s.user.None? ==> r.error == Some(Unauthenticated)
    ensures s.user.Some? && reply.Failed? ==> r.error == Some(AddFailed)
    ensures r.error.None? ==> r.cart.items == reply.items
  {
    if s.user.None? then AddOutcome(s, Some(Unauthenticated))
    else match reply
      case Ok(items) => AddOutcome(s.(items := items), None)
      case Failed => AddOutcome(s, Some(AddFailed))
  }

  /** `removeFromCart`: the server's list on success; otherwise, and without a
      user, nothing changes and nothing is reported. */
  function RemoveFromCart(s: CartState, productId: string, reply: Reply): (r: CartState)
    ensures r.user == s.user
    ensures s.user.None? || reply.Failed? ==> r == s
    ensures s.user.Some? && reply.Ok? ==> r.items == reply.items
  {
    if s.user.None? then s
    else match reply
      case Ok(items) => s.(items := items)
      case Failed => s
  }

  /** `updateQuantity`: a quantity of zero or less is a removal; otherwise the
      server's list on success, and no change on failure. */
  function UpdateQuantity(s: CartState, productId: string, quantity: int, reply: Reply): (r: CartState)
    ensures r.user == s.user
    ensures quantity <= 0 ==> r == RemoveFromCart(s, productId, reply)
    ensures s.user.None? || reply.Failed? ==> r == s
    ensures s.user.Some? && reply.Ok? ==> r.items == reply.items
  {
    if s.user.None? then s
    else if quantity <= 0 then RemoveFromCart(s, productId, reply)
    else match reply
      case Ok(items) => s.(items := items)
      case Failed => s
  }

  /** `clearCart`: the empty list once the server confirms; the reply body is
      not read. */
  function ClearCart(s: CartState, reply: Reply): (r: CartState)
    ensures r.user == s.user
    ensures s.user.None? || reply.Failed? ==> r == s
    ensures s.user.Some? && reply.Ok? ==> r.items == []
  {
    if s.user.None? || reply.Failed? then s else s.(items := [])
  }

  /** The effect on a change of user: no user empties the cart, a user loads
      it. */
  function OnUserChange(s: CartState, user: Option<Auth.User>, reply: ListReply): (r: CartState)
    ensures r.user == user
    ensures user.None? ==> r.items == []
    ensures user.Some? ==> r == LoadCart(s.(user := user), reply)
  {
    if user.None? then CartState(None, []) else LoadCart(s.(user := user), reply)
  }

  /** A non-positive quantity update is the removal: same request, same
      resulting cart, for every reply. */
  lemma UpdateNonPositiveIsRemove(s: CartState, productId: string, quantity: int, reply: Reply)
    requires quantity <= 0
    ensures RequestOf(s.user, UpdateCmd(productId, quantity)) == RequestOf(s.user, RemoveCmd(productId))
    ensures UpdateQuantity(s, productId, quantity, reply) == RemoveFromCart(s, productId, reply)
  {
  }

  // ----- The store over a sequence of calls -----

  /** One call on the store, with the server's reply to it. */
  datatype Event =
    | UserChanged(user: Option<Auth.User>, listReply: ListReply)
    | Loaded(listReply: ListReply)
    | Added(product: Product, reply: Reply)
    | Removed(productId: string, reply: Reply)
    | QuantityUpdated(productId: string, quantity: int, reply: Reply)
    | Cleared(reply: Reply)

  function Apply(s: CartState, e: Event): CartState {
    match e
    case UserChanged(u, lr) => OnUserChange(s, u, lr)
    case Loaded(lr) => LoadCart(s, lr)
    case Added(p, rp) => AddToCart(s, p, rp).cart
    case Removed(id, rp) => RemoveFromCart(s, id, rp)
    case QuantityUpdated(id, q, rp) => UpdateQuantity(s, id, q, rp)
    case Cleared(rp) => ClearCart(s, rp)
  }

  /** The calls applied in order. */
  function Replay(s: CartState, events: seq<Event>): CartState
    decreases |events|
  {
    if events == [] then s else Apply(Replay(s, events[..|events| - 1]), events[|events| - 1])
  }

  /** The user after the calls: the last one signed in or out. */
  function UserAfter(user: Option<Auth.User>, events: seq<Event>): Option<Auth.User>
    decreases |events|
  {
    if events == [] then user
    else
      var e := events[|events| - 1];
      if e.UserChanged? then e.user else UserAfter(user, events[..|events| - 1])
  }

  /** The list a call imposes on the cart when `user` is signed in at the
      time: the server's list for a successful read or write, the empty list
      for a confirmed clear or a sign-out, and nothing when the call is
      refused or fails. */
  function Imposed(user: Option<Auth.User>, e: Event): Option<seq<CartItem>> {
    match e
    case UserChanged(u, lr) =>
      if u.None? then Some([])
      else if lr.Listed? then Some(lr.items.GetOr([])) else None
    case Loaded(lr) =>
      if user.Some? && lr.Listed? then Some(lr.items.GetOr([])) else None
    case Cleared(rp) => if user.Some? && rp.Ok? then Some([]) else None
    case _ => if user.Some? && e.reply.Ok? then Some(e.reply.items) else None
  }

  /** The list imposed by the last call that imposed one. */
  function LastImposed(user: Option<Auth.User>, events: seq<Event>): Option<seq<CartItem>>
    decreases |events|
  {
    if events == [] then None
    else
      var prefix := events[..|events| - 1];
      match Imposed(UserAfter(user, prefix), events[|events| - 1])
      case Some(items) => Some(items)
      case None => LastImposed(user, prefix)
  }

  /** The server is authoritative: after any sequence of calls the cart is
      exactly the last list the server imposed (no merging of any kind), or
      the starting cart when no call imposed one. */
  lemma {:induction false} ReplayIsLastImposed(s: CartState, events: seq<Event>)
    ensures Replay(s, events).user == UserAfter(s.user, events)
    ensures Replay(s, events).items == LastImposed(s.user, events).GetOr(s.items)
    decreases |events|
  {
    if events != [] {
      ReplayIsLastImposed(s, events[..|events| - 1]);
    }
  }

  /** The invariants the backend keeps: positive quantities and at most one
      line per product. */
  predicate WellFormed(items: seq<CartItem>) {
    && (forall i :: 0 <= i < |items| ==> items[i].quantity >= 1)
    && (forall i, j :: 0 <= i < j < |items| ==> items[i].product.id != items[j].product.id)
  }

  predicate RepliesWellFormed(events: seq<Event>) {
    forall k :: 0 <= k < |events| ==>
      match events[k]
      case UserChanged(_, lr) => lr.Listed? && lr.items.Some? ==> WellFormed(lr.items.value)
      case Loaded(lr) => lr.Listed? && lr.items.Some? ==> WellFormed(lr.items.value)
      case _ => events[k].reply.Ok? ==> WellFormed(events[k].reply.items)
  }

  lemma {:induction false} LastImposedWellFormed(user: Option<Auth.User>, events: seq<Event>)
    requires RepliesWellFormed(events)
    ensures LastImposed(user, events).Some? ==> WellFormed(LastImposed(user, events).value)
    decreases |events|
  {
    if events != [] {
      var prefix := events[..|events| - 1];
      assert RepliesWellFormed(prefix) by {
        forall k | 0 <= k < |prefix|
          ensures prefix[k] == events[k]
        {
        }
      }
      LastImposedWellFormed(user, prefix);
      assert events[|events| - 1] == events[|events| - 1];
    }
  }

  /** The client never breaks the backend's invariants: the cart stays
      well-formed as long as every list the server sends is. */
  lemma ReplayWellFormed(s: CartState, events: seq<Event>)
    requires WellFormed(s.items)
    requires RepliesWellFormed(events)
    ensures WellFormed(Replay(s, events).items)
  {
    ReplayIsLastImposed(s, events);
    LastImposedWellFormed(s.user, events);
  }

  // ----- getTotal -----

  /** The discount rate an item is sold at. */
  function Discount(p: Product): real {
    if p.hasDiscount then p.discountValue else 0.0
  }

  function LineTotal(item: CartItem): real {
    item.product.price * (1.0 - Discount(item.product)) * (item.quantity as real)
  }

  /** The sum of `f` over `xs`, first element first. */
  function SumBy<T>(xs: seq<T>, f: T -> real): real
    decreases |xs|
  {
    if xs == [] then 0.0 else f(xs[0]) + SumBy(xs[1..], f)
  }

  /** The sum of the line totals. */
  function Total(items: seq<CartItem>): real {
    SumBy(items, LineTotal)
  }

  /** `getTotal`: the left-to-right `reduce` over the items, starting at 0. */
  method GetTotal(items: seq<CartItem>) returns (total: real)
    ensures total == Total(items)
  {
    total := 0.0;
    var i := 0;
    while i < |items|
      invariant 0 <= i <= |items|
      invariant total + Total(items[i..]) == Total(items)
    {
      assert items[i..][1..] == items[i + 1..];
      total := total + LineTotal(items[i]);
      i := i + 1;
    }
  }

  lemma {:induction false} SumByAppend<T>(a: seq<T>, b: seq<T>, f: T -> real)
    ensures SumBy(a + b, f) == SumBy(a, f) + SumBy(b, f)
    decreases |a|
  {
    if a == [] {
      assert a + b == b;
    } else {
      assert (a + b)[1..] == a[1..] + b;
      SumByAppend(a[1..], b, f);
    }
  }

  /** The sum is one element's value plus the sum over the others. */
  lemma SumByRemove<T>(b: seq<T>, k: nat, f: T -> real)
    requires k < |b|
    ensures SumBy(b, f) == f(b[k]) + SumBy(b[..k] + b[k + 1..], f)
  {
    var p, x, q := b[..k], b[k], b[k + 1..];
    assert b == p + ([x] + q);
    SumByAppend(p, [x] + q, f);
    assert ([x] + q)[1..] == q;
    assert SumBy([x] + q, f) == f(x) + SumBy(q, f);
    SumByAppend(p, q, f);
  }

  lemma MultisetRemove<T>(b: seq<T>, k: nat)
    requires k < |b|
    ensures multiset(b[..k] + b[k + 1..]) == multiset(b) - multiset{b[k]}
  {
    assert b == b[..k] + [b[k]] + b[k + 1..];
    assert multiset(b) == multiset(b[..k]) + multiset{b[k]} + multiset(b[k + 1..]);
  }

  lemma MultisetTail<T>(a: seq<T>)
    requires a != []
    ensures multiset(a[1..]) == multiset(a) - multiset{a[0]}
  {
    assert a == [a[0]] + a[1..];
  }

  /** An element counted in `b` sits at some index of `b`. */
  lemma PositionOf<T>(b: seq<T>, x: T) returns (k: nat)
    requires x in multiset(b)
    ensures k < |b| && b[k] == x
  {
    assert x in b;
    k :| 0 <= k < |b| && b[k] == x;
  }

  /** Taking the same element out of two permutations of each other leaves
      permutations of each other. */
  lemma PermutationRest<T>(a: seq<T>, b: seq<T>, k: nat)
    requires multiset(a) == multiset(b) && a != [] && k < |b| && b[k] == a[0]
    ensures multiset(a[1..]) == multiset(b[..k] + b[k + 1..])
  {
    MultisetRemove(b, k);
    MultisetTail(a);
  }

  /** A sum does not depend on the order of its terms. */
  lemma {:induction false} SumByPermutation<T>(a: seq<T>, b: seq<T>, f: T -> real)
    requires multiset(a) == multiset(b)
    ensures SumBy(a, f) == SumBy(b, f)
    decreases |a|
  {
    if a != [] {
      var k := PositionOf(b, a[0]);
      PermutationRest(a, b, k);
      SumByPermutation(a[1..], b[..k] + b[k + 1..], f);
      SumByRemove(b, k, f);
    }
  }

  /** The total of two lists together is the sum of their totals. */
  lemma TotalAppend(a: seq<CartItem>, b: seq<CartItem>)
    ensures Total(a + b) == Total(a) + Total(b)
  {
    SumByAppend(a, b, LineTotal);
  }

  /** The total does not depend on the order of the lines. */
  lemma TotalPermutation(a: seq<CartItem>, b: seq<CartItem>)
    requires multiset(a) == multiset(b)
    ensures Total(a) == Total(b)
  {
    SumByPermutation(a, b, LineTotal);
  }
}

=== FILE: catalog.dfy ===
/** The catalog page of app/page.tsx: the product query built from the
    filters and the page number, the filter and page changes, the product
    selection and its "add selected to cart" action, and logout. */
module Catalog {
  import opened Wrappers
  import opened Text
  import Auth
  import CartStore

  /** The filter record the page and the filter panel exchange. */
  datatype Filters = Filters(search: string, minPrice: string, maxPrice: string, hasDiscount: string, material: string)

  const NoFilters: Filters := Filters("", "", "", "", "")

  datatype HomeState = HomeState(filters: Filters, currentPage: nat, selected: seq<string>)

  const InitialHome: HomeState := HomeState(NoFilters, 1, [])

  // ----- The query -----

  /** The keys the catalog query uses; on the wire they are `page`, `limit`,
      `search`, `minPrice`, `maxPrice`, `hasDiscount` and `material`. */
  datatype QueryKey = PageKey | LimitKey | SearchKey | MinPriceKey | MaxPriceKey | HasDiscountKey | MaterialKey

  /** One `key=value` pair of `URLSearchParams`. */
  datatype Param = Param(key: QueryKey, value: string)

  /** The page size the catalog always asks for. */
  const PageSize: string := "8"

  /** `if (value) params.append(key, value)`. */
  function Optional(key: QueryKey, value: string): seq<Param> {
    if value == "" then [] else [Param(key, value)]
  }

  /** The query for already-prepared values: page and limit first, then each
      optional value that is non-empty. */
  function Assemble(page: string, search: string, minPrice: string, maxPrice: string,
                    hasDiscount: string, material: string): seq<Param>
  {
    [Param(PageKey, page), Param(LimitKey, PageSize)]
    + (Optional(SearchKey, search)
    + (Optional(MinPriceKey, minPrice)
    + (Optional(MaxPriceKey, maxPrice)
    + (Optional(HasDiscountKey, hasDiscount)
    + Optional(MaterialKey, material)))))
  }

  /** `fetchProducts`' query: the page number, the limit, then each filter
      that is set, the search term trimmed. */
  function BuildQuery(f: Filters, page: nat): (q: seq<Param>)
    ensures 2 <= |q| <= 7
    ensures q[0] == Param(PageKey, NatToString(page)) && q[1] == Param(LimitKey, PageSize)
  {
    Assemble(NatToString(page), Trim(f.search), f.minPrice, f.maxPrice, f.hasDiscount, f.material)
  }

  /** `params.get(key)`: the first value under `key`. */
  function Lookup(q: seq<Param>, key: QueryKey): (r: Option<string>)
    ensures r.Some? ==> exists i :: 0 <= i < |q| && q[i] == Param(key, r.value)
    ensures r.None? <==> forall i :: 0 <= i < |q| ==> q[i].key != key
    decreases |q|
  {
    if q == [] then None
    else if q[0].key == key then Some(q[0].value)
    else Lookup(q[1..], key)
  }

  lemma {:induction false} LookupAppend(a: seq<Param>, b: seq<Param>, key: QueryKey)
    ensures Lookup(a + b, key) == if Lookup(a, key).Some? then Lookup(a, key) else Lookup(b, key)
    decreases |a|
  {
    if a == [] {
      assert a + b == b;
    } else {
      assert (a + b)[1..] == a[1..] + b;
      LookupAppend(a[1..], b, key);
    }
  }

  /** The filters as the backend sees them: the search term trimmed. */
  function Normalize(f: Filters): Filters {
    f.(search := Trim(f.search))
  }

  /** Reading filters back from a query: an absent key is an empty field. */
  function FiltersOf(q: seq<Param>): Filters {
    Filters(
      Lookup(q, SearchKey).GetOr(""),
      Lookup(q, MinPriceKey).GetOr(""),
      Lookup(q, MaxPriceKey).GetOr(""),
      Lookup(q, HasDiscountKey).GetOr(""),
      Lookup(q, MaterialKey).GetOr(""))
  }

  /** `Optional` holds its own key only, and only for a non-empty value. */
  lemma LookupOptional(key: QueryKey, value: string, k: QueryKey)
    ensures Lookup(Optional(key, value), k) == if k == key && value != "" then Some(value) else None
  {
  }

  /** An optional parameter in front of others answers for its own key when
      it is present, and defers to the rest otherwise. */
  lemma LookupOptionalAppend(key: QueryKey, value: string, rest: seq<Param>, k: QueryKey)
    ensures Lookup(Optional(key, value) + rest, k) ==
      if k == key && value != "" then Some(value) else Lookup(rest, k)
  {
    LookupAppend(Optional(key, value), rest, k);
    LookupOptional(key, value, k);
  }

  /** Each key of the assembled query finds exactly its own value. */
  lemma AssembleLookups(page: string, search: string, minPrice: string, maxPrice: string,
                        hasDiscount: string, material: string, k: QueryKey)
    ensures Lookup(Assemble(page, search, minPrice, maxPrice, hasDiscount, material), k) ==
      match k
      case PageKey => Some(page)
      case LimitKey => Some(PageSize)
      case SearchKey => if search == "" then None else Some(search)
      case MinPriceKey => if minPrice == "" then None else Some(minPrice)
      case MaxPriceKey => if maxPrice == "" then None else Some(maxPrice)
      case HasDiscountKey => if hasDiscount == "" then None else Some(hasDiscount)
      case MaterialKey => if material == "" then None else Some(material)
  {
    var mt := Optional(MaterialKey, material);
    var hd := Optional(HasDiscountKey, hasDiscount) + mt;
    var mx := Optional(MaxPriceKey, maxPrice) + hd;
    var mn := Optional(MinPriceKey, minPrice) + mx;
    var s := Optional(SearchKey, search) + mn;
    LookupAppend([Param(PageKey, page), Param(LimitKey, PageSize)], s, k);
    LookupOptionalAppend(SearchKey, search, mn, k);
    LookupOptionalAppend(MinPriceKey, minPrice, mx, k);
    LookupOptionalAppend(MaxPriceKey, maxPrice, hd, k);
    LookupOptionalAppend(HasDiscountKey, hasDiscount, mt, k);
    LookupOptional(MaterialKey, material, k);
  }

  /** Every key of the query maps to what the filters and page say: a key is
      present exactly when its field is set, and empty fields are omitted. */
  lemma QueryLookups(f: Filters, page: nat)
    ensures Lookup(BuildQuery(f, page), PageKey) == Some(NatToString(page))
    ensures Lookup(BuildQuery(f, page), LimitKey) == Some("8")
    ensures Lookup(BuildQuery(f, page), SearchKey) == if Trim(f.search) == "" then None else Some(Trim(f.search))
    ensures Lookup(BuildQuery(f, page), MinPriceKey) == if f.minPrice == "" then None else Some(f.minPrice)
    ensures Lookup(BuildQuery(f, page), MaxPriceKey) == if f.maxPrice == "" then None else Some(f.maxPrice)
    ensures Lookup(BuildQuery(f, page), HasDiscountKey) == if f.hasDiscount == "" then None else Some(f.hasDiscount)
    ensures Lookup(BuildQuery(f, page), MaterialKey) == if f.material == "" then None else Some(f.material)
  {
    var p, s := NatToString(page), Trim(f.search);
    AssembleLookups(p, s, f.minPrice, f.maxPrice, f.hasDiscount, f.material, PageKey);
    AssembleLookups(p, s, f.minPrice, f.maxPrice, f.hasDiscount, f.material, LimitKey);
    AssembleLookups(p, s, f.minPrice, f.maxPrice, f.hasDiscount, f.material, SearchKey);
    AssembleLookups(p, s, f.minPrice, f.maxPrice, f.hasDiscount, f.material, MinPriceKey);
    AssembleLookups(p, s, f.minPrice, f.maxPrice, f.hasDiscount, f.material, MaxPriceKey);
    AssembleLookups(p, s, f.minPrice, f.maxPrice, f.hasDiscount, f.material, HasDiscountKey);
    AssembleLookups(p, s, f.minPrice, f.maxPrice, f.hasDiscount, f.material, MaterialKey);
  }

  /** Round trip: the filters read back from the query are the filters sent,
      with the search term trimmed, and the page reads back as the page. */
  lemma QueryRoundTrip(f: Filters, page: nat)
    ensures FiltersOf(BuildQuery(f, page)) == Normalize(f)
    ensures Lookup(BuildQuery(f, page), PageKey).Some?
    ensures AllDigits(Lookup(BuildQuery(f, page), PageKey).value)
    ensures ParseDigits(Lookup(BuildQuery(f, page), PageKey).value) == page
  {
    QueryLookups(f, page);
    ParseNatToString(page);
  }

  /** With no filter set the query is the page and the limit alone. */
  lemma UnfilteredQuery(page: nat)
    ensures BuildQuery(NoFilters, page) == [Param(PageKey, NatToString(page)), Param(LimitKey, PageSize)]
  {
    BareAssemble(NatToString(page));
    TrimOfEmpty();
  }

  /** The first request the page makes, before any filter or page change,
      asks for page 1 of 8 products. */
  lemma InitialQuery()
    ensures BuildQuery(InitialHome.filters, InitialHome.currentPage) == [Param(PageKey, "1"), Param(LimitKey, PageSize)]
  {
    UnfilteredQuery(1);
  }

  lemma BareAssemble(p: string)
    ensures Assemble(p, "", "", "", "", "") == [Param(PageKey, p), Param(LimitKey, PageSize)]
  {
  }

  lemma TrimOfEmpty()
    ensures Trim("") == ""
  {
  }

  // ----- Filters and pages -----

  /** `handleFiltersChange`: take the new filters and go back to page 1. */
  function HandleFiltersChange(s: HomeState, f: Filters): (r: HomeState)
    ensures r.filters == f && r.currentPage == 1
    ensures r.selected == s.selected
  {
    s.(filters := f, currentPage := 1)
  }

  /** After a filter change the next query asks for page 1 with the new
      filters, whatever page was shown before. */
  lemma FilterChangeQueriesFirstPage(s: HomeState, f: Filters)
    ensures Lookup(BuildQuery(HandleFiltersChange(s, f).filters, HandleFiltersChange(s, f).currentPage), PageKey) == Some("1")
    ensures FiltersOf(BuildQuery(HandleFiltersChange(s, f).filters, HandleFiltersChange(s, f).currentPage)) == Normalize(f)
  {
    QueryRoundTrip(f, 1);
    QueryLookups(f, 1);
    assert NatToString(1) == "1";
  }

  /** `handlePageChange`. */
  function HandlePageChange(s: HomeState, page: nat): (r: HomeState)
    ensures r.currentPage == page
    ensures r.filters == s.filters && r.selected == s.selected
  {
    s.(currentPage := page)
  }

  // ----- Selection -----

  predicate Distinct(s: seq<string>) {
    forall i, j :: 0 <= i < j < |s| ==> s[i] != s[j]
  }

  /** `prev.filter(x => x !== id)`. */
  function Without(s: seq<string>, id: string): (r: seq<string>)
    ensures |r| <= |s|
    decreases |s|
  {
    if s == [] then []
    else (if s[0] == id then [] else [s[0]]) + Without(s[1..], id)
  }

  /** Removal keeps exactly the other ids, and leaves a list without `id` as
      it was. */
  lemma {:induction false} WithoutMembers(s: seq<string>, id: string)
    ensures forall x :: x in Without(s, id) <==> x in s && x != id
    ensures id !in s ==> Without(s, id) == s
    decreases |s|
  {
    if s != [] {
      WithoutMembers(s[1..], id);
      assert s == [s[0]] + s[1..];
    }
  }

  lemma {:induction false} WithoutDistinct(s: seq<string>, id: string)
    requires Distinct(s)
    ensures Distinct(Without(s, id))
    decreases |s|
  {
    if s != [] {
      WithoutDistinct(s[1..], id);
      WithoutMembers(s[1..], id);
      var rest := Without(s[1..], id);
      assert s[0] !in s[1..];
      assert s[0] !in rest;
    }
  }

  /** `handleProductSelect`: remove a selected id, append an unselected one. */
  function ToggleSelect(s: seq<string>, id: string): (r: seq<string>)
    ensures id in r <==> id !in s
    ensures forall x :: x != id ==> (x in r <==> x in s)
    ensures id !in s ==> r == s + [id]
  {
    WithoutMembers(s, id);
    if id in s then Without(s, id) else s + [id]
  }

  /** Toggling an unselected id twice gives back the same list; toggling any
      id twice gives back the same set of ids. */
  lemma ToggleTwice(s: seq<string>, id: string)
    ensures id !in s ==> ToggleSelect(ToggleSelect(s, id), id) == s
    ensures forall x :: x in ToggleSelect(ToggleSelect(s, id), id) <==> x in s
  {
    WithoutMembers(s, id);
    if id !in s {
      assert Without(s + [id], id) == Without(s, id) + Without([id], id) by {
        WithoutAppend(s, [id], id);
      }
      assert Without([id], id) == [];
    }
  }

  lemma {:induction false} WithoutAppend(a: seq<string>, b: seq<string>, id: string)
    ensures Without(a + b, id) == Without(a, id) + Without(b, id)
    decreases |a|
  {
    if a == [] {
      assert a + b == b;
    } else {
      assert (a + b)[1..] == a[1..] + b;
      WithoutAppend(a[1..], b, id);
    }
  }

  /** A selection without duplicates stays without duplicates. */
  lemma ToggleDistinct(s: seq<string>, id: string)
    requires Distinct(s)
    ensures Distinct(ToggleSelect(s, id))
  {
    if id in s {
      WithoutDistinct(s, id);
    }
  }

  /** `a` is `b` with some elements dropped, order kept. */
  predicate Subsequence<T(==)>(a: seq<T>, b: seq<T>)
    decreases |b|
  {
    if a == [] then true
    else if b == [] then false
    else if a[0] == b[0] then Subsequence(a[1..], b[1..])
    else Subsequence(a, b[1..])
  }

  /** `data.products.filter(p => selectedProducts.includes(p.id))`: the
      selected products in catalog order. */
  function SelectedProducts(products: seq<CartStore.Product>, selected: seq<string>): (r: seq<CartStore.Product>)
    ensures Subsequence(r, products)
    ensures forall p :: p in r <==> p in products && p.id in selected
    decreases |products|
  {
    if products == [] then []
    else if products[0].id in selected then [products[0]] + SelectedProducts(products[1..], selected)
    else SelectedProducts(products[1..], selected)
  }

  /** The filter keeps every copy of a selected product and none of the
      others. */
  lemma {:induction false} SelectedProductsCounts(products: seq<CartStore.Product>, selected: seq<string>)
    ensures forall p :: multiset(SelectedProducts(products, selected))[p]
                        == (if p.id in selected then multiset(products)[p] else 0)
    decreases |products|
  {
    if products != [] {
      SelectedProductsCounts(products[1..], selected);
      assert products == [products[0]] + products[1..];
      var rest := SelectedProducts(products[1..], selected);
      if products[0].id in selected {
        assert SelectedProducts(products, selected) == [products[0]] + rest;
      }
    }
  }

  // ----- Adding the selection to the cart -----

  /** What the add loop leaves: the cart, the error that stopped it, and the
      add requests it sent, in order. */
  datatype LoopOutcome = LoopOutcome(cart: CartStore.CartState, error: Option<CartStore.CartError>,
                                     sent: seq<CartStore.Request>)

  /** The request `addToCart(p)` sends, if any. */
  function AddSent(user: Option<Auth.User>, p: CartStore.Product): (r: seq<CartStore.Request>)
    ensures |r| <= 1
    ensures user.None? <==> r == []
    ensures r != [] ==> CartStore.RequestOf(user, CartStore.AddCmd(p)) == Some(r[0])
  {
    match CartStore.RequestOf(user, CartStore.AddCmd(p))
    case Some(q) => [q]
    case None => []
  }

  /** The sequential `await addToCart(p)` loop: stops at the first add that
      throws; `replyTo(k)` is the server's reply to the k-th add. */
  function AddEach(cart: CartStore.CartState, products: seq<CartStore.Product>,
                   replyTo: nat -> CartStore.Reply, k: nat): (r: LoopOutcome)
    ensures r.cart.user == cart.user
    ensures r.error.None? <==>
      products == [] || (cart.user.Some? && forall j :: k <= j < k + |products| ==> replyTo(j).Ok?)
    ensures products == [] ==> r.cart == cart
    ensures r.error.None? && products != [] ==> replyTo(k + |products| - 1) == CartStore.Ok(r.cart.items)
    decreases |products|
  {
    if products == [] then LoopOutcome(cart, None, [])
    else
      var o := CartStore.AddToCart(cart, products[0], replyTo(k));
      var first := AddSent(cart.user, products[0]);
      if o.error.Some? then LoopOutcome(o.cart, o.error, first)
      else
        var rest := AddEach(o.cart, products[1..], replyTo, k + 1);
        LoopOutcome(rest.cart, rest.error, first + rest.sent)
  }

  /** The loop sends one add request per product it reaches, in order, and
      nothing without a user; it reaches every product exactly when no add
      failed. */
  lemma {:induction false} AddEachSent(cart: CartStore.CartState, products: seq<CartStore.Product>,
                                      replyTo: nat -> CartStore.Reply, k: nat)
    ensures |AddEach(cart, products, replyTo, k).sent| <= |products|
    ensures cart.user.None? ==> AddEach(cart, products, replyTo, k).sent == []
    ensures AddEach(cart, products, replyTo, k).error.None? ==> |AddEach(cart, products, replyTo, k).sent| == |products|
    ensures forall i :: 0 <= i < |AddEach(cart, products, replyTo, k).sent| ==>
      CartStore.RequestOf(cart.user, CartStore.AddCmd(products[i])) == Some(AddEach(cart, products, replyTo, k).sent[i])
    decreases |products|
  {
    if products != [] {
      var o := CartStore.AddToCart(cart, products[0], replyTo(k));
      var first := AddSent(cart.user, products[0]);
      if o.error.None? {
        var rest := AddEach(o.cart, products[1..], replyTo, k + 1);
        AddEachSent(o.cart, products[1..], replyTo, k + 1);
        var sent := first + rest.sent;
        assert AddEach(cart, products, replyTo, k).sent == sent;
        forall i | 1 <= i < |sent|
          ensures CartStore.RequestOf(cart.user, CartStore.AddCmd(products[i])) == Some(sent[i])
        {
          assert sent[i] == rest.sent[i - 1] && products[i] == products[1..][i - 1];
        }
      }
    }
  }

  /** Reply `j` is the first refused one from index `k` on. */
  predicate FirstRefused(replyTo: nat -> CartStore.Reply, k: nat, j: nat) {
    k <= j && replyTo(j).Failed? && forall i :: k <= i < j ==> replyTo(i).Ok?
  }

  /** The items the loop leaves when reply `j` is the first refused one. */
  function ItemsBefore(cart: CartStore.CartState, replyTo: nat -> CartStore.Reply, k: nat, j: nat): seq<CartStore.CartItem>
    requires k <= j
  {
    if j == k || replyTo(j - 1).Failed? then cart.items else replyTo(j - 1).items
  }

  /** One turn of the loop with a user signed in: a refused first add stops
      it after one request; an accepted one continues from the returned list. */
  lemma AddEachStep(cart: CartStore.CartState, products: seq<CartStore.Product>,
                    replyTo: nat -> CartStore.Reply, k: nat)
    requires cart.user.Some? && products != []
    ensures replyTo(k).Failed? ==>
      var r := AddEach(cart, products, replyTo, k);
      r.error == Some(CartStore.AddFailed) && r.cart == cart && |r.sent| == 1
    ensures replyTo(k).Ok? ==>
      var r := AddEach(cart, products, replyTo, k);
      var rest := AddEach(cart.(items := replyTo(k).items), products[1..], replyTo, k + 1);
      r.error == rest.error && r.cart == rest.cart && |r.sent| == 1 + |rest.sent|
  {
  }

  /** An accepted reply at `k` extends "first refused from `k + 1`" to
      "first refused from `k`". */
  lemma FirstRefusedShift(replyTo: nat -> CartStore.Reply, k: nat, j: nat)
    requires replyTo(k).Ok? && FirstRefused(replyTo, k + 1, j)
    ensures FirstRefused(replyTo, k, j)
  {
  }

  /** Moving the start of the loop past an accepted reply does not change
      the items left before a later refusal. */
  lemma ItemsBeforeShift(cart: CartStore.CartState, next: CartStore.CartState,
                         replyTo: nat -> CartStore.Reply, k: nat, j: nat)
    requires replyTo(k).Ok? && next.items == replyTo(k).items && k + 1 <= j
    requires forall i :: k <= i < j ==> replyTo(i).Ok?
    ensures ItemsBefore(next, replyTo, k + 1, j) == ItemsBefore(cart, replyTo, k, j)
  {
  }

  /** On a failure with a user signed in, the loop stopped at the first
      refused reply, which answered the last request sent: every earlier add
      went through, and the cart holds the list the last successful add
      returned, or the starting items when the very first add was refused. */
  lemma {:induction false} AddEachStopsAtFirstFailure(cart: CartStore.CartState, products: seq<CartStore.Product>,
                                                     replyTo: nat -> CartStore.Reply, k: nat)
    ensures cart.user.Some? && AddEach(cart, products, replyTo, k).error.Some? ==>
      var r := AddEach(cart, products, replyTo, k);
      && r.error == Some(CartStore.AddFailed)
      && 1 <= |r.sent|
      && FirstRefused(replyTo, k, k + |r.sent| - 1)
      && r.cart.items == ItemsBefore(cart, replyTo, k, k + |r.sent| - 1)
    decreases |products|
  {
    if cart.user.Some? && products != [] {
      AddEachStep(cart, products, replyTo, k);
      if replyTo(k).Failed? {
        assert FirstRefused(replyTo, k, k);
      } else {
        var next := cart.(items := replyTo(k).items);
        var rest := AddEach(next, products[1..], replyTo, k + 1);
        AddEachStopsAtFirstFailure(next, products[1..], replyTo, k + 1);
        if rest.error.Some? {
          var j := k + 1 + |rest.sent| - 1;
          FirstRefusedShift(replyTo, k, j);
          ItemsBeforeShift(cart, next, replyTo, k, j);
        }
      }
    }
  }

  datatype AddSelectedOutcome = LoginRequired | NoCatalog | AllAdded | AddError

  datatype AddSelectedResult = AddSelectedResult(home: HomeState, cart: CartStore.CartState,
                                                 outcome: AddSelectedOutcome, sent: seq<CartStore.Request>)

  /** `addSelectedToCart`: without a user nothing is sent; otherwise the
      selected products of the current page are added in catalog order, and
      the selection is cleared only when every add succeeded. */
  function AddSelectedToCart(home: HomeState, cart: CartStore.CartState,
                             catalog: Option<seq<CartStore.Product>>,
                             replyTo: nat -> CartStore.Reply): (r: AddSelectedResult)
    ensures cart.user.None? ==> r == AddSelectedResult(home, cart, LoginRequired, [])
    ensures cart.user.Some? && catalog.None? ==> r == AddSelectedResult(home, cart, NoCatalog, [])
    ensures r.outcome.AllAdded? ==> r.home == home.(selected := [])
    ensures !r.outcome.AllAdded? ==> r.home == home
    ensures r.cart.user == cart.user
    ensures r.outcome.AllAdded? <==>
              && cart.user.Some? && catalog.Some?
              && forall j :: 0 <= j < |SelectedProducts(catalog.value, home.selected)| ==> replyTo(j).Ok?
    ensures r.outcome.AddError? <==> cart.user.Some? && catalog.Some? && !r.outcome.AllAdded?
  {
    if cart.user.None? then AddSelectedResult(home, cart, LoginRequired, [])
    else if catalog.None? then AddSelectedResult(home, cart, NoCatalog, [])
    else
      var chosen := SelectedProducts(catalog.value, home.selected);
      var o := AddEach(cart, chosen, replyTo, 0);
      if o.error.None? then AddSelectedResult(home.(selected := []), o.cart, AllAdded, o.sent)
      else AddSelectedResult(home, o.cart, AddError, o.sent)
  }

  /** With a catalog, the requests sent are the add requests for the
      selected products in catalog order, up to the first refused one; when
      all succeed the cart holds the last reply's list, and on a refusal it
      holds the list of the last accepted add. */
  lemma AddSelectedSends(home: HomeState, cart: CartStore.CartState,
                         catalog: Option<seq<CartStore.Product>>, replyTo: nat -> CartStore.Reply)
    requires catalog.Some?
    ensures var r := AddSelectedToCart(home, cart, catalog, replyTo);
      var chosen := SelectedProducts(catalog.value, home.selected);
      && |r.sent| <= |chosen|
      && (forall i :: 0 <= i < |r.sent| ==> CartStore.RequestOf(cart.user, CartStore.AddCmd(chosen[i])) == Some(r.sent[i]))
      && (r.outcome.AllAdded? ==> |r.sent| == |chosen|)
      && (r.outcome.AllAdded? && chosen == [] ==> r.cart == cart)
      && (r.outcome.AllAdded? && chosen != [] ==> replyTo(|chosen| - 1) == CartStore.Ok(r.cart.items))
      && (r.outcome.AddError? ==>
            1 <= |r.sent| && FirstRefused(replyTo, 0, |r.sent| - 1)
            && r.cart.items == ItemsBefore(cart, replyTo, 0, |r.sent| - 1))
  {
    var chosen := SelectedProducts(catalog.value, home.selected);
    AddEachSent(cart, chosen, replyTo, 0);
    AddEachStopsAtFirstFailure(cart, chosen, replyTo, 0);
  }

  // ----- Logout -----

  /** `handleLogout`: sign out, and clear the selection; the cart provider's
      effect then empties the cart. */
  function HandleLogout(home: HomeState, auth: Auth.AuthState, cart: CartStore.CartState)
    : (r: (HomeState, Auth.AuthState, CartStore.CartState))
    ensures r.0 == home.(selected := [])
    ensures r.1 == Auth.Logout(auth) && r.1.user.None? && r.1.token.None?
    ensures r.2.user.None? && r.2.items == []
  {
    var signedOut := Auth.Logout(auth);
    (home.(selected := []), signedOut, CartStore.OnUserChange(cart, signedOut.user, CartStore.ListFailed))
  }
}

=== FILE: checkout.dfy ===
/** The checkout rules of app/cart/page.tsx: the CEP (Brazilian postcode)
    auto-formatter of the address form, the ordered validation of the form on
    submission, the state-name lookup with its fallback list, the order
    payload, and the quantity buttons of the item list. */
module Checkout {
  import opened Wrappers
  import opened Text
  import Auth
  import CartStore

  // ----- The CEP formatter -----

  function Min(a: int, b: int): int {
    if a <= b then a else b
  }

  /** `/^\d{5}-\d{3}$/`: five digits, a hyphen, three digits. */
  predicate IsCep(s: string) {
    |s| == 9 && AllDigits(s[..5]) && s[5] == '-' && AllDigits(s[6..])
  }

  /** What the zipcode field keeps of a typed value: its digits, with a hyphen
      after the fifth once there are more than five, and at most eight digits. */
  function FormatCep(value: string): (r: string)
    ensures |r| <= 9
    ensures forall i :: 0 <= i < |r| && i != 5 ==> IsDigit(r[i])
    ensures |r| > 5 ==> r[5] == '-' && |r| >= 7
    ensures |DigitsOf(value)| <= 5 ==> r == DigitsOf(value)
    ensures |DigitsOf(value)| >= 8 ==> IsCep(r)
  {
    var d := DigitsOf(value);
    if |d| <= 5 then d
    else
      var r := d[..5] + "-" + d[5..Min(|d|, 8)];
      assert forall i :: 0 <= i < |r| && i != 5 ==> r[i] == (if i < 5 then d[i] else d[i - 1]);
      r
  }

  /** The formatter keeps the digits of the input, in order, up to the eighth,
      and nothing else. */
  lemma FormatCepDigits(value: string)
    ensures DigitsOf(FormatCep(value)) == DigitsOf(value)[..Min(|DigitsOf(value)|, 8)]
  {
    var d := DigitsOf(value);
    if |d| <= 5 {
      DigitsOfAllDigits(d);
      assert d[..|d|] == d;
    } else {
      var m := Min(|d|, 8);
      assert FormatCep(value) == d[..5] + "-" + d[5..m];
      DigitsOfHyphenated(d[..5], d[5..m]);
      assert d[..5] + d[5..m] == d[..m];
    }
  }

  /** Formatting an already formatted value changes nothing, so retyping in
      the field is stable. */
  lemma FormatCepIdempotent(value: string)
    ensures FormatCep(FormatCep(value)) == FormatCep(value)
  {
    FormatCepDigits(value);
    var d := DigitsOf(value);
    var m := Min(|d|, 8);
    var e := DigitsOf(FormatCep(value));
    assert e == d[..m];
    if |d| > 5 {
      assert e[..5] == d[..5];
      assert e[5..Min(|e|, 8)] == d[5..m];
    }
  }

  /** A well-formed CEP is a fixed point of the formatter. */
  lemma FormatCepKeepsCep(s: string)
    requires IsCep(s)
    ensures FormatCep(s) == s
  {
    assert s == s[..5] + "-" + s[6..];
    DigitsOfAppend(s[..5] + "-", s[6..]);
    DigitsOfAppend(s[..5], "-");
    DigitsOfAllDigits(s[..5]);
    DigitsOfAllDigits(s[6..]);
    assert DigitsOf("-") == [];
    var d := DigitsOf(s);
    assert d == s[..5] + s[6..];
    assert d[..5] == s[..5] && d[5..8] == s[6..];
  }

  // ----- The order form -----

  datatype Field =
    Name | Email | Phone | Street | Number | Neighborhood | Zipcode | City | State | Observation

  datatype OrderDraft = OrderDraft(
    name: string, email: string, phone: string, street: string, number: string,
    neighborhood: string, zipcode: string, city: string, state: string, observation: string)

  function Get(d: OrderDraft, f: Field): string {
    match f
    case Name => d.name
    case Email => d.email
    case Phone => d.phone
    case Street => d.street
    case Number => d.number
    case Neighborhood => d.neighborhood
    case Zipcode => d.zipcode
    case City => d.city
    case State => d.state
    case Observation => d.observation
  }

  /** `{ ...prev, [field]: value }`. */
  function Set(d: OrderDraft, f: Field, v: string): (r: OrderDraft)
    ensures Get(r, f) == v
    ensures forall g :: g != f ==> Get(r, g) == Get(d, g)
  {
    match f
    case Name => d.(name := v)
    case Email => d.(email := v)
    case Phone => d.(phone := v)
    case Street => d.(street := v)
    case Number => d.(number := v)
    case Neighborhood => d.(neighborhood := v)
    case Zipcode => d.(zipcode := v)
    case City => d.(city := v)
    case State => d.(state := v)
    case Observation => d.(observation := v)
  }

  /** The form as first rendered: name and e-mail prefilled from the user. */
  function InitialDraft(user: Option<Auth.User>): (d: OrderDraft)
    ensures user.Some? ==> d.name == user.value.name && d.email == user.value.email
    ensures user.None? ==> d.name == "" && d.email == ""
    ensures forall f :: f != Name && f != Email ==> Get(d, f) == ""
  {
    match user
    case Some(u) => OrderDraft(u.name, u.email, "", "", "", "", "", "", "", "")
    case None => OrderDraft("", "", "", "", "", "", "", "", "", "")
  }

  /** `handleInputChange`: the zipcode goes through the formatter, every other
      field is stored as typed, and no other field changes. */
  function HandleInputChange(d: OrderDraft, f: Field, value: string): (r: OrderDraft)
    ensures f == Zipcode ==> Get(r, f) == FormatCep(value)
    ensures f != Zipcode ==> Get(r, f) == value
    ensures forall g :: g != f ==> Get(r, g) == Get(d, g)
  {
    Set(d, f, if f == Zipcode then FormatCep(value) else value)
  }

  /** Whatever is typed into the zipcode field, once it has eight digits the
      stored value passes the submission pattern. */
  lemma TypedZipcodeValidates(d: OrderDraft, value: string)
    requires |DigitsOf(value)| >= 8
    ensures IsCep(HandleInputChange(d, Zipcode, value).zipcode)
  {
  }

  /** Every field but `observation` must be filled, checked in this order. */
  const RequiredFields: seq<Field> :=
    [Name, Email, Phone, Street, Number, Neighborhood, Zipcode, City, State]

  /** The fields of `fields` left empty in `d`, in order. */
  function MissingOf(fields: seq<Field>, d: OrderDraft): (r: seq<Field>)
    ensures forall f :: f in r <==> f in fields && Get(d, f) == ""
    ensures |r| <= |fields|
    decreases |fields|
  {
    if fields == [] then []
    else (if Get(d, fields[0]) == "" then [fields[0]] else []) + MissingOf(fields[1..], d)
  }

  function MissingFields(d: OrderDraft): seq<Field> {
    MissingOf(RequiredFields, d)
  }

  lemma MissingFieldsIff(d: OrderDraft)
    ensures MissingFields(d) == [] <==> forall f :: f != Observation ==> Get(d, f) != ""
  {
    forall f | f != Observation
      ensures f in RequiredFields
    {
    }
    assert Observation !in RequiredFields;
    if MissingFields(d) != [] {
      assert MissingFields(d)[0] in MissingFields(d);
    }
  }

  // ----- States -----

  datatype Region = Region(code: string, name: string)

  /** `PRE_LOADED_STATES`, the list used when `/api/states` fails. */
  const PreloadedStates: seq<Region> :=
    [Region("SP", "São Paulo"), Region("RJ", "Rio de Janeiro"), Region("MG", "Minas Gerais")]

  /** Reply of `/api/states`: a body with its `success` flag, or a thrown
      error. */
  datatype StatesReply = StatesBody(success: bool, states: seq<Region>) | StatesError

  /** The state list the form offers after the fetch. */
  function StatesAfterFetch(reply: StatesReply): (r: seq<Region>)
    ensures reply.StatesBody? && reply.success ==> r == reply.states
    ensures reply.StatesError? || !reply.success ==> r == PreloadedStates
  {
    match reply
    case StatesBody(ok, states) => if ok then states else PreloadedStates
    case StatesError => PreloadedStates
  }

  /** `states[i]` is the first state whose code is `code`. */
  predicate FirstWithCode(states: seq<Region>, code: string, i: int) {
    && 0 <= i < |states|
    && states[i].code == code
    && forall j :: 0 <= j < i ==> states[j].code != code
  }

  /** `states.find(s => s.code === code)?.name`, falling back to the code. */
  function StateName(states: seq<Region>, code: string): (r: string)
    ensures forall i :: FirstWithCode(states, code, i) ==> r == states[i].name
    ensures (forall i :: 0 <= i < |states| ==> states[i].code != code) ==> r == code
    decreases |states|
  {
    if states == [] then code
    else if states[0].code == code then states[0].name
    else StateName(states[1..], code)
  }

  /** The fallback list resolves its own codes and passes others through. */
  lemma PreloadedStateNames()
    ensures StateName(PreloadedStates, "SP") == "São Paulo"
    ensures StateName(PreloadedStates, "BA") == "BA"
  {
    assert FirstWithCode(PreloadedStates, "SP", 0);
  }

  // ----- Submission -----

  datatype OrderLine = OrderLine(id: string, quantity: int)

  /** The body of POST /orders/create.  Name and e-mail are not sent; the
      state is sent both as its code and as its resolved name. */
  datatype OrderPayload = OrderPayload(
    productsIds: seq<OrderLine>,
    phone: string, street: string, number: string, neighborhood: string,
    zipCode: string, city: string, state: string, stateName: string,
    observation: string, total: real)

  /** `cartItems.map(item => ({ id, quantity }))`. */
  function OrderLines(items: seq<CartStore.CartItem>): (r: seq<OrderLine>)
    ensures |r| == |items|
    ensures forall i :: 0 <= i < |items| ==>
      r[i].id == items[i].product.id && r[i].quantity == items[i].quantity
    decreases |items|
  {
    if items == [] then []
    else [OrderLine(items[0].product.id, items[0].quantity)] + OrderLines(items[1..])
  }

  datatype SubmitOutcome =
    | RedirectToLogin
    | MissingRequired(fields: seq<Field>)
    | InvalidZipcode
    | Submitted(payload: OrderPayload)

  /** `handleSubmitOrder` up to the request: no user sends to the login page,
      then an empty required field, then a zipcode off the pattern, each stop
      the submission before anything is sent. */
  function SubmitOrder(user: Option<Auth.User>, d: OrderDraft, states: seq<Region>,
                       items: seq<CartStore.CartItem>): (r: SubmitOutcome)
    ensures r.RedirectToLogin? <==> user.None?
    ensures r.MissingRequired? <==> user.Some? && MissingFields(d) != []
    ensures r.MissingRequired? ==> r.fields == MissingFields(d)
    ensures r.InvalidZipcode? <==> user.Some? && MissingFields(d) == [] && !IsCep(d.zipcode)
    ensures r.Submitted? <==> user.Some? && MissingFields(d) == [] && IsCep(d.zipcode)
    ensures r.Submitted? ==> r.payload.productsIds == OrderLines(items)
    ensures r.Submitted? ==> r.payload.zipCode == d.zipcode && r.payload.state == d.state
    ensures r.Submitted? ==> r.payload.phone == d.phone && r.payload.street == d.street && r.payload.number == d.number
    ensures r.Submitted? ==> r.payload.neighborhood == d.neighborhood && r.payload.city == d.city
    ensures r.Submitted? ==> r.payload.observation == d.observation
    ensures r.Submitted? ==> r.payload.stateName == StateName(states, d.state)
    ensures r.Submitted? ==> r.payload.total == CartStore.Total(items)
  {
    if user.None? then RedirectToLogin
    else if MissingFields(d) != [] then MissingRequired(MissingFields(d))
    else if !IsCep(d.zipcode) then InvalidZipcode
    else Submitted(OrderPayload(
      OrderLines(items), d.phone, d.street, d.number, d.neighborhood,
      d.zipcode, d.city, d.state, StateName(states, d.state), d.observation,
      CartStore.Total(items)))
  }

  /** A zipcode that bypassed the formatter, such as "01310100", is refused
      even with every other field filled. */
  lemma RawZipcodeRejected(u: Auth.User, d: OrderDraft, states: seq<Region>,
                           items: seq<CartStore.CartItem>)
    requires forall f :: f != Observation ==> Get(d, f) != ""
    requires d.zipcode == "01310100"
    ensures SubmitOrder(Some(u), d, states, items) == InvalidZipcode
  {
    MissingFieldsIff(d);
  }

  /** Reply of POST /orders/create. */
  datatype OrderReply = Created(orderId: string) | OrderFailed

  datatype Confirmation = Confirmed(orderId: string, cart: CartStore.CartState) | RetryLater(cart: CartStore.CartState)

  /** After the request: on success the cart is cleared (its own request,
      with `clearReply`) and the confirmation is keyed by the returned order
      id; on failure nothing changes. */
  function FinishOrder(cart: CartStore.CartState, reply: OrderReply, clearReply: CartStore.Reply): (r: Confirmation)
    ensures reply.Created? ==> r.Confirmed? && r.orderId == reply.orderId
    ensures reply.Created? && cart.user.Some? && clearReply.Ok? ==> r.cart == cart.(items := [])
    ensures reply.Created? && (cart.user.None? || clearReply.Failed?) ==> r.cart == cart
    ensures reply.OrderFailed? ==> r == RetryLater(cart)
  {
    match reply
    case Created(id) => Confirmed(id, CartStore.ClearCart(cart, clearReply))
    case OrderFailed => RetryLater(cart)
  }

  // ----- Quantity buttons -----

  /** The minus button asks for `Math.max(1, quantity - 1)`. */
  function DecrementTarget(quantity: int): (r: int)
    ensures r >= 1
    ensures quantity >= 2 ==> r == quantity - 1
    ensures quantity <= 2 ==> r == 1
  {
    if quantity - 1 >= 1 then quantity - 1 else 1
  }

  /** So the minus button always sends an update, never a removal. */
  lemma DecrementNeverRemoves(u: Auth.User, productId: string, quantity: int)
    ensures CartStore.RequestOf(Some(u), CartStore.UpdateCmd(productId, DecrementTarget(quantity)))
            == Some(CartStore.UpdateRequest(productId, DecrementTarget(quantity)))
  {
  }
}

=== FILE: cookies.dfy ===
/** The `getCookie` reader that lib/cart-context.tsx, lib/auth-context.tsx and
    app/cart/page.tsx each define identically.  It prefixes the cookie header
    with "; ", splits it on "; <name>=" with JavaScript's `String.prototype.split`
    (left to right, non-overlapping), and answers only when the split yields
    exactly two parts; the value is the second part up to its first ';'.
    A missing `document` (server-side rendering) is `None`. */
module Cookies {
  import opened Wrappers

  /** `sep` occurs in `s` at position `i`. */
  predicate OccursAt(s: string, sep: string, i: int) {
    0 <= i && i + |sep| <= |s| && s[i..i + |sep|] == sep
  }

  predicate Contains(s: string, sep: string) {
    exists i :: 0 <= i <= |s| && OccursAt(s, sep, i)
  }

  /** A proper prefix of `sep` is also a suffix of it, so two occurrences can
      overlap. */
  predicate SelfOverlapping(sep: string) {
    exists k :: 0 < k < |sep| && sep[k..] == sep[..|sep| - k]
  }

  /** The first occurrence of `sep` in `s` at or after `from`. */
  function IndexOf(s: string, sep: string, from: nat): (r: Option<nat>)
    requires |sep| > 0
    ensures r.Some? ==> from <= r.value && OccursAt(s, sep, r.value)
    ensures r.Some? ==> forall j :: from <= j < r.value ==> !OccursAt(s, sep, j)
    ensures r.None? ==> forall j :: from <= j ==> !OccursAt(s, sep, j)
    decreases |s| - from
  {
    if from + |sep| > |s| then None
    else if OccursAt(s, sep, from) then Some(from)
    else IndexOf(s, sep, from + 1)
  }

  /** `s.split(sep)` for a non-empty separator. */
  function Split(s: string, sep: string): (parts: seq<string>)
    requires |sep| > 0
    ensures |parts| >= 1
    decreases |s|
  {
    match IndexOf(s, sep, 0)
    case None => [s]
    case Some(i) => [s[..i]] + Split(s[i + |sep|..], sep)
  }

  /** `parts.join(sep)`. */
  function Join(parts: seq<string>, sep: string): string
    requires |parts| >= 1
    decreases |parts|
  {
    if |parts| == 1 then parts[0] else parts[0] + sep + Join(parts[1..], sep)
  }

  /** Joining a part in front of a non-empty list of parts. */
  lemma JoinCons(a: string, parts: seq<string>, sep: string)
    requires |parts| >= 1
    ensures Join([a] + parts, sep) == a + sep + Join(parts, sep)
  {
    assert ([a] + parts)[1..] == parts;
  }

  /** A string is the text before, at and after a window of it. */
  lemma SliceAround(s: string, i: nat, n: nat)
    requires i + n <= |s|
    ensures s == s[..i] + s[i..i + n] + s[i + n..]
  {
  }

  /** The first step of a split at the first occurrence `i`. */
  lemma SplitAtFirst(s: string, sep: string, i: nat)
    requires |sep| > 0 && IndexOf(s, sep, 0) == Some(i)
    ensures i + |sep| <= |s|
    ensures Split(s, sep) == [s[..i]] + Split(s[i + |sep|..], sep)
    ensures s == s[..i] + sep + s[i + |sep|..]
  {
    SliceAround(s, i, |sep|);
  }

  /** Splitting loses nothing: joining the parts back gives the input. */
  lemma {:induction false} SplitJoin(s: string, sep: string)
    requires |sep| > 0
    ensures Join(Split(s, sep), sep) == s
    decreases |s|
  {
    var r := IndexOf(s, sep, 0);
    if r.Some? {
      var i := r.value;
      SplitAtFirst(s, sep, i);
      var rest := s[i + |sep|..];
      SplitJoin(rest, sep);
      JoinCons(s[..i], Split(rest, sep), sep);
    }
  }

  /** Text before the first occurrence holds no occurrence. */
  lemma PrefixBeforeFirst(s: string, sep: string, i: nat)
    requires |sep| > 0 && i <= |s|
    requires forall j :: 0 <= j < i ==> !OccursAt(s, sep, j)
    ensures !Contains(s[..i], sep)
  {
    forall j | 0 <= j <= i && j + |sep| <= i
      ensures !OccursAt(s[..i], sep, j)
    {
      assert s[..i][j..j + |sep|] == s[j..j + |sep|];
      assert !OccursAt(s, sep, j);
    }
  }

  /** Every part of a split is free of the separator. */
  lemma {:induction false} SplitPartsSepFree(s: string, sep: string)
    requires |sep| > 0
    ensures forall k :: 0 <= k < |Split(s, sep)| ==> !Contains(Split(s, sep)[k], sep)
    decreases |s|
  {
    match IndexOf(s, sep, 0)
    case None =>
    case Some(i) =>
      PrefixBeforeFirst(s, sep, i);
      SplitPartsSepFree(s[i + |sep|..], sep);
  }

  /** A string with an occurrence of the separator splits into two or more parts. */
  lemma SplitOfContaining(s: string, sep: string)
    requires |sep| > 0
    requires Contains(s, sep)
    ensures |Split(s, sep)| >= 2
  {
    var j :| OccursAt(s, sep, j);
    assert IndexOf(s, sep, 0).Some?;
  }

  /** `s.split(";").shift()`: the text of `s` before its first ';'. */
  function FirstField(s: string): (v: string)
    ensures v <= s
    ensures ';' !in v
    ensures v == s || s[|v|] == ';'
  {
    var v := Split(s, ";")[0];
    match IndexOf(s, ";", 0)
    case None =>
      assert forall j :: 0 <= j < |s| && s[j] == ';' ==> OccursAt(s, ";", j);
      v
    case Some(i) =>
      assert forall j :: 0 <= j < i && s[j] == ';' ==> OccursAt(s, ";", j);
      v
  }

  /** The separator the reader splits on. */
  function Separator(name: string): string {
    "; " + name + "="
  }

  /** `getCookie(name)` over the cookie header `document.cookie`. */
  function GetCookie(document: Option<string>, name: string): (r: Option<string>)
    ensures document.None? ==> r.None?
    ensures r.Some? ==> ';' !in r.value
  {
    match document
    case None => None
    case Some(cookie) =>
      var parts := Split("; " + cookie, Separator(name));
      if |parts| == 2 then Some(FirstField(parts[1])) else None
  }

  /** A value read back is the text right after the only occurrence of
      "; <name>=", up to the next ';'. */
  lemma GetCookieSound(cookie: string, name: string) returns (before: string, after: string)
    requires GetCookie(Some(cookie), name).Some?
    ensures "; " + cookie == before + Separator(name) + after
    ensures !Contains(before, Separator(name)) && !Contains(after, Separator(name))
    ensures GetCookie(Some(cookie), name).value == FirstField(after)
  {
    var sep := Separator(name);
    var parts := Split("; " + cookie, sep);
    SplitJoin("; " + cookie, sep);
    SplitPartsSepFree("; " + cookie, sep);
    before, after := parts[0], parts[1];
    assert Join(parts, sep) == before + sep + after;
  }

  /** No occurrence of "; <name>=": the reader returns null. */
  lemma GetCookieAbsent(cookie: string, name: string)
    requires !Contains("; " + cookie, Separator(name))
    ensures GetCookie(Some(cookie), name) == None
  {
    var s := "; " + cookie;
    assert IndexOf(s, Separator(name), 0).None?;
  }

  /** An occurrence survives dropping a prefix that ends before it. */
  lemma OccursInSuffix(s: string, sep: string, d: nat, j: nat)
    requires OccursAt(s, sep, j) && d <= j
    ensures OccursAt(s[d..], sep, j - d)
  {
    assert s[d..][j - d..j - d + |sep|] == s[j..j + |sep|];
  }

  /** One step of the split: the part before the first occurrence, then the
      split of the rest. */
  lemma SplitStep(s: string, sep: string, i: nat)
    requires |sep| > 0 && IndexOf(s, sep, 0) == Some(i)
    ensures |Split(s, sep)| == 1 + |Split(s[i + |sep|..], sep)|
  {
  }

  /** Two disjoint occurrences give at least three parts. */
  lemma SplitOfTwoOccurrences(s: string, sep: string, i: nat, j: nat)
    requires |sep| > 0
    requires OccursAt(s, sep, i) && OccursAt(s, sep, j) && i + |sep| <= j
    ensures |Split(s, sep)| >= 3
  {
    var r := IndexOf(s, sep, 0);
    assert r.Some?;
    var i0 := r.value;
    assert i0 <= i;
    OccursInSuffix(s, sep, i0 + |sep|, j);
    SplitOfContaining(s[i0 + |sep|..], sep);
    SplitStep(s, sep, i0);
  }

  /** Two disjoint occurrences of "; <name>=": the split has three or more
      parts and the reader returns null. */
  lemma GetCookieAmbiguous(cookie: string, name: string, i: nat, j: nat)
    requires OccursAt("; " + cookie, Separator(name), i)
    requires OccursAt("; " + cookie, Separator(name), j)
    requires i + |Separator(name)| <= j
    ensures GetCookie(Some(cookie), name) == None
  {
    SplitOfTwoOccurrences("; " + cookie, Separator(name), i, j);
  }

  /** With a name free of ';' the separator cannot overlap itself. */
  lemma SeparatorNotSelfOverlapping(name: string)
    requires ';' !in name
    ensures !SelfOverlapping(Separator(name))
  {
    var sep := Separator(name);
    forall k | 0 < k < |sep|
      ensures sep[k..] != sep[..|sep| - k]
    {
      assert sep[..|sep| - k][0] == ';';
      if 2 <= k < |sep| - 1 {
        assert sep[k] == name[k - 2];
      }
      assert sep[k..][0] != ';';
    }
  }

  /** Exactly one occurrence of "; <name>=" (the text around it free of the
      separator) and a name free of ';': the reader returns the text after it
      up to the next ';'. */
  lemma GetCookieUnique(cookie: string, name: string, before: string, after: string)
    requires ';' !in name
    requires "; " + cookie == before + Separator(name) + after
    requires !Contains(before, Separator(name)) && !Contains(after, Separator(name))
    ensures GetCookie(Some(cookie), name) == Some(FirstField(after))
  {
    var s, sep := "; " + cookie, Separator(name);
    var a := |before|;
    SeparatorNotSelfOverlapping(name);
    assert s[a..a + |sep|] == sep;
    assert OccursAt(s, sep, a);
    forall j | 0 <= j < a
      ensures !OccursAt(s, sep, j)
    {
      if j + |sep| <= a {
        assert before[j..j + |sep|] == s[j..j + |sep|];
        assert !OccursAt(before, sep, j);
      } else {
        var k := a - j;
        assert sep[k..] != sep[..|sep| - k];
        assert s[a..j + |sep|] == sep[..|sep| - k];
        assert s[j..j + |sep|][k..] == s[a..j + |sep|];
      }
    }
    var r := IndexOf(s, sep, 0);
    assert r == Some(a);
    assert s[..a] == before;
    assert s[a + |sep|..] == after;
    assert IndexOf(after, sep, 0).None?;
    assert Split(s, sep) == [before, after];
  }
}

=== FILE: filters.dfy ===
/** The filter panel of components/product-filters.tsx: the filter record it
    reports to the catalog page, the search box whose value reaches the record
    through a debounce, "clear all", and the active-filter badge. */
module ProductFilters {
  import Catalog
  import Text

  /** The five keys `handleFilterChange` is called with. */
  datatype FilterKey = Search | MinPrice | MaxPrice | HasDiscount | Material

  /** The panel's state: the filter record and the text in the search box. */
  datatype Panel = Panel(filters: Catalog.Filters, searchValue: string)

  const InitialPanel: Panel := Panel(Catalog.NoFilters, "")

  function Field(f: Catalog.Filters, k: FilterKey): string {
    match k
    case Search => f.search
    case MinPrice => f.minPrice
    case MaxPrice => f.maxPrice
    case HasDiscount => f.hasDiscount
    case Material => f.material
  }

  /** `{ ...filters, [key]: value }`. */
  function SetField(f: Catalog.Filters, k: FilterKey, v: string): (r: Catalog.Filters)
    ensures Field(r, k) == v
    ensures forall k' :: k' != k ==> Field(r, k') == Field(f, k')
  {
    match k
    case Search => f.(search := v)
    case MinPrice => f.(minPrice := v)
    case MaxPrice => f.(maxPrice := v)
    case HasDiscount => f.(hasDiscount := v)
    case Material => f.(material := v)
  }

  /** A record is determined by its five fields. */
  lemma FieldsDetermine(f: Catalog.Filters, g: Catalog.Filters)
    requires forall k :: Field(f, k) == Field(g, k)
    ensures f == g
  {
    assert Field(f, Search) == Field(g, Search);
    assert Field(f, MinPrice) == Field(g, MinPrice);
    assert Field(f, MaxPrice) == Field(g, MaxPrice);
    assert Field(f, HasDiscount) == Field(g, HasDiscount);
    assert Field(f, Material) == Field(g, Material);
  }

  /** `handleFilterChange(key, value)`: the new panel state and the record
      reported through `onFiltersChange`. */
  function HandleFilterChange(p: Panel, k: FilterKey, v: string): (r: (Panel, Catalog.Filters))
    ensures r.0.filters == r.1
    ensures Field(r.1, k) == v
    ensures forall k' :: k' != k ==> Field(r.1, k') == Field(p.filters, k')
    ensures r.0.searchValue == p.searchValue
  {
    var f := SetField(p.filters, k, v);
    (p.(filters := f), f)
  }

  /** Writing a field twice keeps only the second value; writing a field its
      current value changes nothing. */
  lemma FilterChangeOverwrites(p: Panel, k: FilterKey, v: string, w: string)
    ensures HandleFilterChange(HandleFilterChange(p, k, v).0, k, w) == HandleFilterChange(p, k, w)
    ensures HandleFilterChange(p, k, Field(p.filters, k)).0 == p
  {
    var twice := HandleFilterChange(HandleFilterChange(p, k, v).0, k, w).1;
    var once := HandleFilterChange(p, k, w).1;
    FieldsDetermine(twice, once);
    FieldsDetermine(HandleFilterChange(p, k, Field(p.filters, k)).1, p.filters);
  }

  /** `handleSearchChange`: only the search box changes; the record follows
      when the debounce fires. */
  function HandleSearchChange(p: Panel, v: string): (r: Panel)
    ensures r.searchValue == v && r.filters == p.filters
  {
    p.(searchValue := v)
  }

  /** The debounce firing as written.  The debounced callback is memoised
      with no dependencies, so its timer calls the first render's
      `handleFilterChange`, whose `filters` is the initial empty record: the
      box's text is written into an otherwise empty record, which is stored
      and reported. */
  function SearchSettledAsWritten(p: Panel): (r: (Panel, Catalog.Filters))
    ensures r.0.filters == r.1 && r.0.searchValue == p.searchValue
    ensures r.1.search == p.searchValue
    ensures forall k :: k != Search ==> Field(r.1, k) == ""
  {
    HandleFilterChange(InitialPanel.(searchValue := p.searchValue), Search, p.searchValue)
  }

  /** A field set before the search settles is wiped by the firing: choosing
      material "wood" and then typing "chair" reports a record without the
      material. */
  lemma SettledSearchWipesOtherFields(p: Panel, k: FilterKey)
    requires k != Search && Field(p.filters, k) != ""
    ensures Field(SearchSettledAsWritten(p).1, k) != Field(p.filters, k)
    ensures SearchSettledAsWritten(p).1 != SearchSettled(p).1
  {
    assert Field(SearchSettled(p).1, k) == Field(p.filters, k);
  }

  lemma WoodChairLosesMaterial()
    ensures SearchSettledAsWritten(Panel(Catalog.Filters("", "", "", "", "wood"), "chair")).1
      == Catalog.Filters("chair", "", "", "", "")
  {
    var r := SearchSettledAsWritten(Panel(Catalog.Filters("", "", "", "", "wood"), "chair")).1;
    FieldsDetermine(r, Catalog.Filters("chair", "", "", "", ""));
  }

  /** The debounce firing as intended: `handleFilterChange("search",
      searchValue)` against the current record. */
  function SearchSettled(p: Panel): (r: (Panel, Catalog.Filters))
    ensures r.1.search == p.searchValue == r.0.searchValue
    ensures forall k :: k != Search ==> Field(r.1, k) == Field(p.filters, k)
  {
    HandleFilterChange(p, Search, p.searchValue)
  }

  /** The two firings agree exactly when no field other than the search is
      set, which is the case the first render's record gets right. */
  lemma SettledAgreesWhenOnlySearch(p: Panel)
    ensures SearchSettledAsWritten(p) == SearchSettled(p) <==>
      forall k :: k != Search ==> Field(p.filters, k) == ""
  {
    if forall k :: k != Search ==> Field(p.filters, k) == "" {
      FieldsDetermine(SearchSettledAsWritten(p).1, SearchSettled(p).1);
    } else {
      var k :| k != Search && Field(p.filters, k) != "";
      SettledSearchWipesOtherFields(p, k);
    }
  }

  /** `clearFilters`: every field and the search box emptied, and the empty
      record reported. */
  function ClearFilters(p: Panel): (r: (Panel, Catalog.Filters))
    ensures forall k :: Field(r.1, k) == ""
    ensures r.0.filters == r.1 && r.0.searchValue == ""
  {
    (InitialPanel, Catalog.NoFilters)
  }

  /** A select's value: "all" stands for no restriction. */
  function SelectValue(v: string): (r: string)
    ensures v == "all" ==> r == ""
    ensures v != "all" ==> r == v
  {
    if v == "all" then "" else v
  }

  /** The material and discount selects' `onValueChange`. */
  function OnSelect(p: Panel, k: FilterKey, v: string): (r: (Panel, Catalog.Filters))
    requires k == Material || k == HasDiscount
  {
    HandleFilterChange(p, k, SelectValue(v))
  }

  /** Choosing "all" in a select lifts that restriction and touches nothing else. */
  lemma SelectAllLifts(p: Panel, k: FilterKey)
    requires k == Material || k == HasDiscount
    ensures Field(OnSelect(p, k, "all").1, k) == ""
    ensures forall k' :: k' != k ==> Field(OnSelect(p, k, "all").1, k') == Field(p.filters, k')
  {
  }

  /** `Object.values(filters)`, in the record's declaration order. */
  function Values(f: Catalog.Filters): (vs: seq<string>)
    ensures |vs| == 5
    ensures forall k :: Field(f, k) in vs
    ensures forall i :: 0 <= i < |vs| ==> exists k :: vs[i] == Field(f, k)
    ensures multiset(vs) == multiset{f.search, f.minPrice, f.maxPrice, f.hasDiscount, f.material}
  {
    var vs := [f.search, f.minPrice, f.maxPrice, f.hasDiscount, f.material];
    assert vs[0] == Field(f, Search) && vs[1] == Field(f, MinPrice) && vs[2] == Field(f, MaxPrice);
    assert vs[3] == Field(f, HasDiscount) && vs[4] == Field(f, Material);
    vs
  }

  /** `values.filter(v => v !== "").length`. */
  function CountNonEmpty(vs: seq<string>): nat
    decreases |vs|
  {
    if vs == [] then 0 else (if vs[0] != "" then 1 else 0) + CountNonEmpty(vs[1..])
  }

  /** The count is at most the number of values and is zero exactly when every
      value is empty. */
  lemma {:induction false} CountNonEmptyBounds(vs: seq<string>)
    ensures CountNonEmpty(vs) <= |vs|
    ensures CountNonEmpty(vs) == 0 <==> forall i :: 0 <= i < |vs| ==> vs[i] == ""
    decreases |vs|
  {
    if vs != [] {
      CountNonEmptyBounds(vs[1..]);
      assert forall i :: 1 <= i < |vs| ==> vs[i] == vs[1..][i - 1];
    }
  }

  /** `hasActiveFilters`: some field is set or the search box holds text. */
  predicate HasActiveFilters(p: Panel) {
    Values(p.filters) != ["", "", "", "", ""] || p.searchValue != ""
  }

  /** `activeFiltersCount`: the set fields plus one for a non-empty search box. */
  function ActiveFiltersCount(p: Panel): nat {
    CountNonEmpty(Values(p.filters)) + (if p.searchValue != "" then 1 else 0)
  }

  /** The badge counts at most six filters, and it counts some exactly when a
      filter is active; a panel is active exactly when some field or the
      search box is non-empty. */
  lemma ActiveFiltersCountIff(p: Panel)
    ensures ActiveFiltersCount(p) <= 6
    ensures ActiveFiltersCount(p) > 0 <==> HasActiveFilters(p)
    ensures HasActiveFilters(p) <==> (exists k :: Field(p.filters, k) != "") || p.searchValue != ""
  {
    var vs := Values(p.filters);
    CountNonEmptyBounds(vs);
    if forall i :: 0 <= i < |vs| ==> vs[i] == "" {
      assert vs == ["", "", "", "", ""];
    }
  }

  /** Once the debounce has fired, a search term is counted twice: once as
      the record's `search` field and once for the search box.  As written,
      the firing also empties every other field, so the badge then reads 2
      whatever was selected before. */
  lemma SettledSearchCountsTwice(p: Panel)
    requires p.searchValue != ""
    ensures ActiveFiltersCount(SearchSettledAsWritten(p).0) == 2
  {
    var f := SearchSettledAsWritten(p).1;
    assert Field(f, MinPrice) == "" && Field(f, MaxPrice) == "";
    assert Field(f, HasDiscount) == "" && Field(f, Material) == "";
    var vs := Values(f);
    assert vs == [p.searchValue, "", "", "", ""];
    assert CountNonEmpty(vs[4..]) == 0;
    assert CountNonEmpty(vs[3..]) == 0;
    assert CountNonEmpty(vs[2..]) == 0;
    assert CountNonEmpty(vs[1..]) == 0;
  }

  /** After "clear all" nothing is active, and the catalog's query for the
      reported record holds only the page and the limit. */
  lemma ClearedPanelInactive(p: Panel, page: nat)
    ensures !HasActiveFilters(ClearFilters(p).0) && ActiveFiltersCount(ClearFilters(p).0) == 0
    ensures Catalog.BuildQuery(ClearFilters(p).1, page) ==
      [Catalog.Param(Catalog.PageKey, Text.NatToString(page)), Catalog.Param(Catalog.LimitKey, Catalog.PageSize)]
  {
    Catalog.UnfilteredQuery(page);
  }
}

=== FILE: order_success.dfy ===
/** The order confirmation page of app/order-success/page.tsx: the guard on
    the `orderId` query parameter, the order fetch, and the status badge. */
module OrderSuccess {
  import opened Wrappers

  // ----- The status badge -----

  datatype Variant = Default | Secondary | Destructive

  datatype Badge = Badge(text: string, variant: Variant)

  /** The statuses the page knows, in the map's order. */
  const KnownStatuses: seq<string> :=
    ["pending", "confirmed", "processing", "shipped", "delivered", "cancelled"]

  /** `statusMap`'s own entries. */
  function OwnEntry(status: string): (r: Option<Badge>)
    ensures r.Some? <==> status in KnownStatuses
  {
    if status == "pending" then Some(Badge("Pendente", Secondary))
    else if status == "confirmed" then Some(Badge("Confirmado", Default))
    else if status == "processing" then Some(Badge("Processando", Default))
    else if status == "shipped" then Some(Badge("Enviado", Default))
    else if status == "delivered" then Some(Badge("Entregue", Default))
    else if status == "cancelled" then Some(Badge("Cancelado", Destructive))
    else None
  }

  const Unknown: Badge := Badge("Desconhecido", Secondary)

  /** The members every object literal inherits from `Object.prototype`; a
      bracket lookup under one of these names finds a function (or, for
      `__proto__`, the prototype object), which is truthy. */
  const PrototypeMembers: seq<string> :=
    ["constructor", "__defineGetter__", "__defineSetter__", "hasOwnProperty",
     "__lookupGetter__", "__lookupSetter__", "isPrototypeOf", "propertyIsEnumerable",
     "toString", "valueOf", "__proto__", "toLocaleString"]

  /** What `statusMap[status]` yields. */
  datatype MapValue = Entry(badge: Badge) | Inherited | Undefined

  function StatusMapGet(status: string): (v: MapValue)
    ensures v.Entry? <==> status in KnownStatuses
    ensures v.Inherited? <==> status in PrototypeMembers
  {
    match OwnEntry(status)
    case Some(b) => Entry(b)
    case None => if status in PrototypeMembers then Inherited else Undefined
  }

  /** The badge as rendered: an inherited member has neither `label` nor
      `variant`, so both read `undefined`. */
  datatype ShownBadge = ShownBadge(text: Option<string>, variant: Option<Variant>)

  function Shown(b: Badge): ShownBadge {
    ShownBadge(Some(b.text), Some(b.variant))
  }

  /** `getStatusBadge` as written: `statusMap[status] || fallback`. */
  function StatusBadgeAsWritten(status: string): (b: ShownBadge)
    ensures status !in PrototypeMembers ==> b.text.Some? && b.variant.Some?
  {
    match StatusMapGet(status)
    case Entry(badge) => Shown(badge)
    case Inherited => ShownBadge(None, None)
    case Undefined => Shown(Unknown)
  }

  /** A server status of "constructor" renders a badge with no label. */
  lemma ConstructorStatusHasNoLabel()
    ensures StatusBadgeAsWritten("constructor").text.None?
  {
    assert "constructor" == PrototypeMembers[0];
    assert "constructor" !in KnownStatuses;
  }

  /** `getStatusBadge` with the lookup restricted to the map's own entries:
      the six known statuses get their fixed label and variant, anything
      else the "Desconhecido" fallback. */
  function StatusBadge(status: string): (b: Badge)
    ensures b.text != ""
    ensures status == "pending" ==> b == Badge("Pendente", Secondary)
    ensures status == "confirmed" ==> b == Badge("Confirmado", Default)
    ensures status == "processing" ==> b == Badge("Processando", Default)
    ensures status == "shipped" ==> b == Badge("Enviado", Default)
    ensures status == "delivered" ==> b == Badge("Entregue", Default)
    ensures status == "cancelled" ==> b == Badge("Cancelado", Destructive)
    ensures status !in KnownStatuses ==> b == Unknown
    ensures b.variant.Destructive? <==> status == "cancelled"
    ensures b.variant.Secondary? <==> status == "pending" || status !in KnownStatuses
  {
    OwnEntry(status).GetOr(Unknown)
  }

  /** The six labels are distinct from each other and from the fallback, so
      the label alone tells a known status apart. */
  lemma StatusLabelsDistinct(s: string, t: string)
    requires s in KnownStatuses && t in KnownStatuses && s != t
    ensures StatusBadge(s).text != StatusBadge(t).text
    ensures StatusBadge(s).text != Unknown.text
  {
  }

  /** Off the prototype's member names the code as written already renders
      the corrected badge. */
  lemma AsWrittenAgrees(status: string)
    requires status !in PrototypeMembers
    ensures StatusBadgeAsWritten(status) == Shown(StatusBadge(status))
  {
  }

  // ----- The page -----

  datatype Order = Order(id: string, status: string, total: real)

  /** The reply to `GET /orders/<id>`: ok with the order, not ok, or the
      request threw. */
  datatype OrderReply = Found(order: Order) | NotOk | Unreachable

  /** The page after its mount effect: whether it fetched, the order it
      shows, whether it sent the visitor home, and the loading flag. */
  datatype Page = Page(fetched: Option<string>, details: Option<Order>, redirectedHome: bool, loading: bool)

  /** The mount effect: a missing or empty `orderId` redirects home before
      any request; otherwise the order is fetched, and a reply that is not
      ok, or a request that throws, also redirects home. */
  function Enter(orderId: Option<string>, reply: OrderReply): (p: Page)
    ensures orderId.None? || orderId.value == "" ==> p.fetched.None? && p.redirectedHome && p.details.None?
    ensures orderId.Some? && orderId.value != "" ==> p.fetched == orderId && !p.loading
    ensures p.details.Some? <==> orderId.Some? && orderId.value != "" && reply.Found?
    ensures p.redirectedHome <==> p.details.None?
    ensures p.loading <==> orderId.None? || orderId.value == ""
    ensures p.details.Some? ==> reply.Found? && p.details.value == reply.order
  {
    if orderId.None? || orderId.value == "" then Page(None, None, true, true)
    else match reply
      case Found(o) => Page(orderId, Some(o), false, false)
      case NotOk => Page(orderId, None, true, false)
      case Unreachable => Page(orderId, None, true, false)
  }

  /** Without an order id nothing is fetched, whatever the server would say. */
  lemma NoIdNoFetch(reply: OrderReply, other: OrderReply)
    ensures Enter(None, reply) == Enter(None, other) == Enter(Some(""), reply)
    ensures Enter(None, reply).fetched.None?
  {
  }
}

=== FILE: text.dfy ===
/** String helpers shared by the storefront modules: ASCII digit classes
    (the `\d` / `\D` of JavaScript regular expressions), `String.prototype.trim`
    and the decimal rendering of a page number. */
module Text {

  /** JavaScript's `\d`: the ten ASCII digits only. */
  predicate IsDigit(c: char) {
    '0' <= c <= '9'
  }

  predicate AllDigits(s: string) {
    forall i :: 0 <= i < |s| ==> IsDigit(s[i])
  }

  /** `s.replace(/\D/g, "")`: the digits of `s`, in order. */
  function DigitsOf(s: string): (r: string)
    ensures AllDigits(r)
    ensures |r| <= |s|
    decreases |s|
  {
    if s == [] then []
    else (if IsDigit(s[0]) then [s[0]] else []) + DigitsOf(s[1..])
  }

  /** A string made of digits only is left as it is. */
  lemma {:induction false} DigitsOfAllDigits(s: string)
    requires AllDigits(s)
    ensures DigitsOf(s) == s
    decreases |s|
  {
    if s != [] {
      DigitsOfAllDigits(s[1..]);
    }
  }

  /** Stripping a string with a known first character. */
  lemma DigitsOfCons(c: char, s: string)
    ensures DigitsOf([c] + s) == (if IsDigit(c) then [c] else []) + DigitsOf(s)
  {
    assert ([c] + s)[1..] == s;
  }

  /** Stripping non-digits distributes over concatenation. */
  lemma {:induction false} DigitsOfAppend(a: string, b: string)
    ensures DigitsOf(a + b) == DigitsOf(a) + DigitsOf(b)
    decreases |a|
  {
    if a == [] {
      assert a + b == b;
    } else {
      var h := if IsDigit(a[0]) then [a[0]] else [];
      assert a + b == [a[0]] + (a[1..] + b);
      assert a == [a[0]] + a[1..];
      DigitsOfCons(a[0], a[1..] + b);
      DigitsOfCons(a[0], a[1..]);
      DigitsOfAppend(a[1..], b);
      assert h + (DigitsOf(a[1..]) + DigitsOf(b)) == (h + DigitsOf(a[1..])) + DigitsOf(b);
    }
  }

  /** The characters `String.prototype.trim` removes: the ECMAScript
      WhiteSpace and LineTerminator code points. */
  predicate IsSpace(c: char) {
    || c == ' ' || c == '\t' || c == '\n' || c == '\r'
    || c == '\U{000B}' || c == '\U{000C}' || c == '\U{00A0}' || c == '\U{1680}'
    || ('\U{2000}' <= c <= '\U{200A}')
    || c == '\U{2028}' || c == '\U{2029}' || c == '\U{202F}' || c == '\U{205F}'
    || c == '\U{3000}' || c == '\U{FEFF}'
  }

  /** The index of the first non-white-space character at or after `i`, or
      `|s|` when there is none. */
  function TrimStartIndex(s: string, i: nat): (lo: nat)
    requires i <= |s|
    ensures i <= lo <= |s|
    ensures forall k :: i <= k < lo ==> IsSpace(s[k])
    ensures lo < |s| ==> !IsSpace(s[lo])
    decreases |s| - i
  {
    if i < |s| && IsSpace(s[i]) then TrimStartIndex(s, i + 1) else i
  }

  /** The end of `s[lo..hi]` once its trailing white space is dropped. */
  function TrimEndIndex(s: string, lo: nat, hi: nat): (e: nat)
    requires lo <= hi <= |s|
    ensures lo <= e <= hi
    ensures forall k :: e <= k < hi ==> IsSpace(s[k])
    ensures e > lo ==> !IsSpace(s[e - 1])
    decreases hi
  {
    if hi > lo && IsSpace(s[hi - 1]) then TrimEndIndex(s, lo, hi - 1) else hi
  }

  /** `s.trim()`: `s` without its leading and trailing white space. */
  function Trim(s: string): (r: string)
    ensures |r| <= |s|
    ensures r == [] || (!IsSpace(r[0]) && !IsSpace(r[|r| - 1]))
  {
    var lo := TrimStartIndex(s, 0);
    s[lo..TrimEndIndex(s, lo, |s|)]
  }

  /** The trimmed text is a slice of the input whose surroundings are all
      white space. */
  lemma TrimIsSlice(s: string) returns (lo: nat)
    ensures lo + |Trim(s)| <= |s|
    ensures Trim(s) == s[lo..lo + |Trim(s)|]
    ensures forall i :: 0 <= i < lo ==> IsSpace(s[i])
    ensures forall i :: lo + |Trim(s)| <= i < |s| ==> IsSpace(s[i])
  {
    lo := TrimStartIndex(s, 0);
    var hi := TrimEndIndex(s, lo, |s|);
    assert Trim(s) == s[lo..hi];
  }

  /** `s.trim()` is empty exactly when `s` is all white space: the test the
      catalog query uses to leave the search term out. */
  lemma TrimEmptyIff(s: string)
    ensures Trim(s) == [] <==> forall i :: 0 <= i < |s| ==> IsSpace(s[i])
  {
    var lo := TrimIsSlice(s);
    if Trim(s) != [] {
      assert !IsSpace(s[lo]);
    }
  }

  /** Trimming twice changes nothing more. */
  lemma TrimIdempotent(s: string)
    ensures Trim(Trim(s)) == Trim(s)
  {
    var r := Trim(s);
    if r != [] {
      assert TrimStartIndex(r, 0) == 0;
      assert TrimEndIndex(r, 0, |r|) == |r|;
      assert r[0..|r|] == r;
    }
  }

  /** A trailing hyphen is stripped. */
  lemma DigitsOfHyphen(x: string)
    ensures DigitsOf(x + "-") == DigitsOf(x)
  {
    DigitsOfAppend(x, "-");
    DigitsOfCons('-', []);
    assert ['-'] + [] == "-";
  }

  /** Stripping a hyphenated pair of digit strings leaves the two joined. */
  lemma DigitsOfHyphenated(x: string, y: string)
    requires AllDigits(x) && AllDigits(y)
    ensures DigitsOf(x + "-" + y) == x + y
  {
    var xh := x + "-";
    DigitsOfHyphen(x);
    DigitsOfAppend(xh, y);
    DigitsOfAllDigits(x);
    DigitsOfAllDigits(y);
  }

  function DigitChar(d: nat): (c: char)
    requires d < 10
    ensures IsDigit(c)
  {
    ['0', '1', '2', '3', '4', '5', '6', '7', '8', '9'][d]
  }

  function DigitValue(c: char): (d: nat)
    requires IsDigit(c)
    ensures d < 10 && DigitChar(d) == c
  {
    (c as int - '0' as int) as nat
  }

  /** `n.toString()` for a non-negative integer: decimal, without leading
      zeros. */
  function NatToString(n: nat): (r: string)
    ensures |r| >= 1 && AllDigits(r)
    ensures |r| > 1 ==> r[0] != '0'
    decreases n
  {
    if n < 10 then [DigitChar(n)] else NatToString(n / 10) + [DigitChar(n % 10)]
  }

  /** The value of a string of decimal digits. */
  function ParseDigits(s: string): nat
    requires AllDigits(s)
    decreases |s|
  {
    if s == [] then 0 else ParseDigits(s[..|s| - 1]) * 10 + DigitValue(s[|s| - 1])
  }

  lemma DigitRoundTrip(d: nat)
    requires d < 10
    ensures DigitValue(DigitChar(d)) == d
  {
  }

  /** Reading a rendered page number back gives the number. */
  lemma {:induction false} ParseNatToString(n: nat)
    ensures ParseDigits(NatToString(n)) == n
    decreases n
  {
    var r := NatToString(n);
    if n < 10 {
      assert r == [DigitChar(n)];
      assert r[..0] == [];
      DigitRoundTrip(n);
    } else {
      var prefix := NatToString(n / 10);
      assert r == prefix + [DigitChar(n % 10)];
      assert r[..|r| - 1] == prefix;
      ParseNatToString(n / 10);
      DigitRoundTrip(n % 10);
      assert ParseDigits(r) == ParseDigits(prefix) * 10 + DigitValue(DigitChar(n % 10));
    }
  }
}

=== FILE: wrappers.dfy ===
/** The optional value used wherever the storefront has `null`, `undefined`
    or a missing field. */
module Wrappers {

  datatype Option<+T> = None | Some(value: T) {

    /** The wrapped value, or `default` when there is none. */
    function GetOr(default: T): T {
      match this
      case Some(v) => v
      case None => default
    }
  }
}
